=== FILE: README.md ===
# Data-platform utility scripts, modelled in Dafny

This project models the pure logic of four command-line utilities for a data
platform. It then proves what that logic promises.

- **Table comparison** (`compare_table_contents.py`):
  - the `QueryBuilder` that normalises `WHERE` / `ORDER BY` clauses;
  - the builders for the column list and for the row-count, `EXCEPT DISTINCT` and `UNION ALL` query texts;
  - `TableComparator.analyze_schemas`, which relates the column sets and types of two BigQuery tables;
  - the command line's `parse_table_path`.
- **Table usage tracker** (`table_usage_tracker.py`):
  - normalising and matching the excluded table-name substrings;
  - the `region-<location>` jobs-view prefix;
  - the last-query lookup;
  - the loop that joins each dataset's tables with that lookup into `TableActivity` entries;
  - the CSV row of an entry.
- **Cloud Run metadata** (`fetch_cloudrun_services.py`):
  - `extract_service_metadata`, the summary of one `gcloud run services list` record;
  - the skip-list filter of the processing loop.
- **Pull-request metadata** (`fetch_pr_metadata.py`):
  - the look-back filter on `updatedAt`;
  - the status and merge-time logic of `process_pr_metadata`;
  - the five-column CSV projection.

## Modules

One module per concept. Each lives in its own file:

| file | module | contents |
|---|---|---|
| `wrappers.dfy` | `Wrappers` | `Option` (a key the record lacks, or a `None` argument) and `Result` (a value or a raised error's message) |
| `text.dfy` | `Text` | ASCII `strip`, `lower`, `startswith`, substring test, `split` / `join`, decimal text; generic sequence facts |
| `ordering.dfy` | `Ordering` | Python's string order; `sorted(set)` as the unique strictly ascending enumeration |
| `assoc.dfy` | `Assoc` | `dict(pairs)`: the last pair for a key wins |
| `query_builder.dfy` | `QueryBuilder` | clause normalisation and query text |
| `table_comparator.dfy` | `TableComparator` | `analyze_schemas`, `parse_table_path` |
| `table_usage.dfy` | `TableUsage` | exclusions, region prefix, lookup, activity list, CSV row |
| `cloudrun.dfy` | `CloudRun` | service summary and processing loop |
| `pr_metadata.dfy` | `PrMetadata` | update filter, status, merge time, CSV rows |

Representation choices:

- Python values that may be absent are `Option`s. Python's truthiness of a string is `Text.Truthy`: present and non-empty.
- Python sets stay sets. `analyze_schemas` iterates a set to build `schema_mismatches`, so their order is unspecified; the model holds them as a set.
- Dictionaries are `map`s, so key order is not modelled.
- Reading and printing ISO-8601 time stamps are function parameters:
  - `parseIso` gives the `DateTime` that `datetime.fromisoformat` reads: the wall-clock time, and the UTC offset when the text has one. Where `fromisoformat` raises `ValueError`, it gives `Err` with that error's message. The message is `Invalid isoformat string: ...` for malformed text, and a range message such as `month must be in 1..12` for a field out of range.
  - Times and offsets count microseconds, the resolution of Python's `datetime`. So `now` is `datetime.now(timezone.utc)` with its microseconds.
  - `formatWall` is `strftime("%Y-%m-%d %H:%M:%S")` of a wall-clock time. The merge-time cell appends the literal ` UTC` without applying the offset, as the source does.
- `Option.None` in a raw record means the JSON entry does not have that key. A key present with an explicit JSON `null` is not represented; see "Left out".
- A BigQuery `TIMESTAMP` is represented by its `isoformat()` text.

## Model

| member | source | states |
|---|---|---|
| QueryBuilder.NormalizeClause | 3_bigquery_utils/compare_table_contents.py:49-66 | A missing or empty clause gives `None`. Otherwise the clause is stripped. The stripped text is kept as it is exactly when its lower-case form already starts with the keyword; otherwise it is prefixed with the keyword and a space. |
| QueryBuilder.NormalizedStartsWithKeyword | 3_bigquery_utils/compare_table_contents.py:53-56 | After normalisation, a non-empty clause always begins with the keyword, ignoring case. |
| QueryBuilder.NormalizeKeepsKeyworded | 3_bigquery_utils/compare_table_contents.py:59-66 | A trimmed clause that already opens with the keyword passes through unchanged. |
| QueryBuilder.NormalizedTrimmed | 3_bigquery_utils/compare_table_contents.py:53-56 | A clause with visible text normalises to non-empty text with no surrounding whitespace. |
| QueryBuilder.NormalizeIdempotent | 3_bigquery_utils/compare_table_contents.py:49-66 | For any clause with visible text, normalising a second time changes nothing. |
| QueryBuilder.WhitespaceClauseNotFixpoint | 3_bigquery_utils/compare_table_contents.py:51-56 | A whitespace-only clause becomes the keyword plus a space, i.e. an empty `where`. Normalising that again gives the bare keyword, so normalisation is not idempotent there. |
| QueryBuilder.KeywordTestNotWordBounded | 3_bigquery_utils/compare_table_contents.py:54-55 | A clause whose first word only begins with the keyword (e.g. `whereabouts`) is taken to carry the keyword already, and gets no prefix. |
| QueryBuilder.WherePrefixNotWordBounded | 3_bigquery_utils/compare_table_contents.py:54-55 | The concrete case: the where clause `wherever` is returned unchanged. |
| QueryBuilder.NormalizeClauseBounded | 3_bigquery_utils/compare_table_contents.py:49-66 | The intended normaliser. It drops a clause exactly when the clause is missing, empty or whitespace-only. Otherwise it returns the stripped clause, possibly prefixed with the keyword. |
| QueryBuilder.BoundedStartsWithKeyword | 3_bigquery_utils/compare_table_contents.py:54-55 | Every clause the intended normaliser returns opens with the keyword as a whole word. |
| QueryBuilder.BoundedIdempotent | 3_bigquery_utils/compare_table_contents.py:49-66 | The intended normaliser is idempotent on every input, whitespace-only clauses included. |
| QueryBuilder.BoundedPrefixesLongerWord | 3_bigquery_utils/compare_table_contents.py:54-55 | The intended normaliser does prefix the keyword to a clause whose first word merely begins with it. |
| QueryBuilder.BuildColumnList | 3_bigquery_utils/compare_table_contents.py:69-78 | Explicit columns win. Otherwise a non-empty set of common columns gives those names in ascending order, joined by `, `. Otherwise the result is `*`. |
| QueryBuilder.BuildRowCountQuery | 3_bigquery_utils/compare_table_contents.py:81-86 | The query counts rows of the named table. It ends with the where clause when one is given and has nothing after the table name otherwise. |
| QueryBuilder.ExceptArmsLines | 3_bigquery_utils/compare_table_contents.py:111-116 | Line by line, the `EXCEPT DISTINCT` text is: the `table1` select, the operator, then the `table2` select. Both selects use the same columns and filter. |
| QueryBuilder.LimitPart | 3_bigquery_utils/compare_table_contents.py:132-133 | A `LIMIT` is added exactly when the limit is present and non-zero, and then it ends in a digit. |
| QueryBuilder.WrappedHead | 3_bigquery_utils/compare_table_contents.py:119-125 | The wrapped query starts with the outer `SELECT` and ends with the parenthesis closing the `EXCEPT DISTINCT`. |
| QueryBuilder.BuildExceptDistinctQuery | 3_bigquery_utils/compare_table_contents.py:89-135 | The query has no surrounding whitespace. Wrapping happens exactly when a source column or order-by is given. Stripping never cuts into the query proper, only into the trailing clause and limit. |
| QueryBuilder.LimitPartReadsBack | 3_bigquery_utils/compare_table_contents.py:132-133 | The `LIMIT` clause's number reads back as the limit itself. |
| QueryBuilder.ExceptQueryLimitLast | 3_bigquery_utils/compare_table_contents.py:132-135 | A non-zero limit always ends the query, as ` LIMIT <n>`. |
| QueryBuilder.ExceptQueryNoLimit | 3_bigquery_utils/compare_table_contents.py:132-133 | A zero limit gives the same query as no limit. |
| QueryBuilder.ExceptQueryOrderAfterParen | 3_bigquery_utils/compare_table_contents.py:125-128 | A trimmed order-by clause sits one space after the closing parenthesis, before any limit. |
| QueryBuilder.ExceptQueryClosesParen | 3_bigquery_utils/compare_table_contents.py:119-125 | With a source column, no order-by and no limit, the query is exactly the outer select over the parenthesised `EXCEPT DISTINCT`. |
| QueryBuilder.Parenthesized | 3_bigquery_utils/compare_table_contents.py:143 | Each union operand is its query in parentheses, one for one. |
| QueryBuilder.BuildUnionQuery | 3_bigquery_utils/compare_table_contents.py:138-148 | The union starts with the first query and ends with the last, each parenthesised. An order-by wraps the union in `SELECT * FROM (...)` followed by the clause. No queries and no order-by give the empty text. |
| QueryBuilder.UnionOrderWraps | 3_bigquery_utils/compare_table_contents.py:145-146 | With an order-by, the result is exactly the plain union, wrapped. |
| QueryBuilder.UnionAppend | 3_bigquery_utils/compare_table_contents.py:143 | The union of two lists is the two unions joined by one more `UNION ALL`, so queries keep their order. |
| QueryBuilder.UnionOfTwo | 3_bigquery_utils/compare_table_contents.py:304 | Two difference queries combine as `(q1) UNION ALL (q2)`. |
| TableComparator.ColumnNames | 3_bigquery_utils/compare_table_contents.py:184-185 | The column set holds exactly the names appearing in the schema. |
| TableComparator.SpecifiedColumns | 3_bigquery_utils/compare_table_contents.py:189 | A `--specific-columns` argument yields one more name than it has commas. Each name is trimmed and comma-free. The names are the stripped pieces of some cutting of the argument into comma-free pieces that join back to it with commas. |
| TableComparator.SpecifiedColumnsOfJoin | 3_bigquery_utils/compare_table_contents.py:189 | Comma-free pieces joined with commas read back as exactly those pieces, stripped, in order, so the names an argument yields are fixed by where its commas are. |
| TableComparator.AnalyzeSchemas | 3_bigquery_utils/compare_table_contents.py:177-224 | The result relates the two column sets: the `only_in` sets partition each table's columns against the shared ones. Without specific columns, the common set is the intersection and nothing is missing. With them, the common set is the named columns both tables have, and missing plus common partition the named ones. Every mismatch concerns a common column with differing types. Specific columns never count as identical. |
| TableComparator.DictKeysAreColumns | 3_bigquery_utils/compare_table_contents.py:205-206 | `dict(schema)` has exactly the schema's column names as keys. |
| TableComparator.DictTypeOf | 3_bigquery_utils/compare_table_contents.py:205-206 | `dict(schema)` gives a column the type of the last pair with that name. |
| TableComparator.MismatchIff | 3_bigquery_utils/compare_table_contents.py:208-214 | A mismatch is recorded exactly for a common column whose two types differ, and it carries those two types. |
| TableComparator.TypeOfUnique | 3_bigquery_utils/compare_table_contents.py:205-206 | A schema read as a dictionary gives each column at most one type. |
| TableComparator.SchemasIdenticalIff | 3_bigquery_utils/compare_table_contents.py:222-224 | `schemas_identical` holds exactly when all three are true: no specific columns were given, the schemas have the same length, and every shared column has one type in both. |
| TableComparator.SchemasIdenticalIgnoresRenamedColumn | 3_bigquery_utils/compare_table_contents.py:222-224 | Schemas `a,b` and `a,c` are reported identical even though `b` is only in the first. |
| TableComparator.SchemasIdenticalCorrected | 3_bigquery_utils/compare_table_contents.py:222-224 | The intended verdict: identical implies the two tables have the same column set. |
| TableComparator.SchemasIdenticalCorrectedSound | 3_bigquery_utils/compare_table_contents.py:222-224 | Under the intended verdict, both schemas read as the same column-to-type dictionary. |
| TableComparator.CorrectedRejectsRenamedColumn | 3_bigquery_utils/compare_table_contents.py:222-224 | The intended verdict turns down the renamed-column pair. |
| TableComparator.ColumnListRoundTrip | 3_bigquery_utils/compare_table_contents.py:76 | Feeding the column list built from common columns back as `--specific-columns` names exactly those columns, in sorted order. |
| TableComparator.StripSplitJoin | 3_bigquery_utils/compare_table_contents.py:189 | Splitting a `, `-joined list of clean names on commas and stripping each part recovers the names. |
| TableComparator.ParseTablePath | 3_bigquery_utils/compare_table_contents.py:490-496 | Parsing succeeds exactly when the path has two dots. The three parts rebuild the path and contain no dot. Otherwise the error message quotes the path. |
| TableComparator.ParseTablePathRoundTrip | 3_bigquery_utils/compare_table_contents.py:490-496 | Parsing inverts joining three dot-free names with dots. |
| TableComparator.DefaultTablePathParses | 3_bigquery_utils/compare_table_contents.py:37 | The default `project.dataset.table` parses into its three parts. |
| TableUsage.NormalizeExclusions | 3_bigquery_utils/table_usage_tracker.py:205-207 | `None` gives no exclusions. No more exclusions come out than went in, and each one is non-empty and lower-case. |
| TableUsage.LowerNonEmptyMembers | 3_bigquery_utils/table_usage_tracker.py:206 | An exclusion survives exactly when it is the lower-cased form of some non-empty configured value. |
| TableUsage.LowerNonEmptyAppend | 3_bigquery_utils/table_usage_tracker.py:206 | Normalisation keeps the configured order. |
| TableUsage.NormalizeExclusionsIdempotent | 3_bigquery_utils/table_usage_tracker.py:205-207 | Normalising already-normalised exclusions changes nothing. |
| TableUsage.IsExcluded | 3_bigquery_utils/table_usage_tracker.py:210-212 | A table is excluded exactly when some exclusion occurs in its lower-cased name. |
| TableUsage.ExclusionIgnoresCase | 3_bigquery_utils/table_usage_tracker.py:210-212 | Table names that agree up to case are excluded alike. |
| TableUsage.ExcludedIffConfiguredOccurs | 3_bigquery_utils/table_usage_tracker.py:205-212 | With normalised exclusions, a table is excluded exactly when the lower-cased form of some non-empty configured substring occurs in its lower-cased name. |
| TableUsage.VerbatimOccurrenceExcludes | 3_bigquery_utils/table_usage_tracker.py:205-212 | A non-empty configured substring that occurs verbatim in a table name excludes that table. |
| TableUsage.NothingExcludedByDefault | 3_bigquery_utils/table_usage_tracker.py:205-207 | Neither `None` nor only-empty substrings exclude any table. |
| TableUsage.RegionPrefix | 3_bigquery_utils/table_usage_tracker.py:215-219 | A blank location raises `location cannot be empty`. Otherwise the prefix is `region-` and the stripped, lower-cased location. |
| TableUsage.RegionPrefixPadding | 3_bigquery_utils/table_usage_tracker.py:215-219 | Whitespace around the location does not change the prefix. |
| TableUsage.RegionPrefixIgnoresCase | 3_bigquery_utils/table_usage_tracker.py:215-219 | Locations that agree up to case give the same prefix. |
| TableUsage.DefaultRegionPrefix | 3_bigquery_utils/table_usage_tracker.py:35 | The default location `US` names the `region-us` jobs view. |
| TableUsage.LastQueryPlan | 3_bigquery_utils/table_usage_tracker.py:172-176 | With no datasets, no query is sent. Otherwise the query fails exactly for a blank location and reads the region's `JOBS_BY_PROJECT` view. |
| TableUsage.FetchLastQueryTimes | 3_bigquery_utils/table_usage_tracker.py:165-202 | With no datasets, the result is an empty lookup. Otherwise it fails exactly for a blank location. Every returned row's key is in the lookup, and each key holds the time of its last row. |
| TableUsage.LookupKeysFromRows | 3_bigquery_utils/table_usage_tracker.py:200-202 | Every key of the lookup comes from a returned row. |
| TableUsage.ActivityOf | 3_bigquery_utils/table_usage_tracker.py:88-101 | An entry carries its dataset, its table, the row's times and sizes, and the lookup's value for its key (`None` when absent). |
| TableUsage.CollectActivities | 3_bigquery_utils/table_usage_tracker.py:76-104 | The loop over datasets and rows produces exactly the specified activity list. |
| TableUsage.CollectDatasetActivities | 3_bigquery_utils/table_usage_tracker.py:88-104 | The loop over one dataset's rows yields, in row order, one entry per row whose name is not excluded. |
| TableUsage.FetchTableActivity | 3_bigquery_utils/table_usage_tracker.py:51-106 | The fetch fails exactly when there are datasets and the location is blank. Otherwise it returns the activity list for the normalised exclusions and the fetched lookup. |
| TableUsage.FetchDefaultTableActivity | 3_bigquery_utils/table_usage_tracker.py:29-35 | With the configured datasets, exclusions and location, the lookup never fails. |
| TableUsage.DatasetActivitiesSound | 3_bigquery_utils/table_usage_tracker.py:86-101 | Every entry of a dataset comes from one of its rows, is not excluded, and carries the lookup value for its key. |
| TableUsage.DatasetActivitiesComplete | 3_bigquery_utils/table_usage_tracker.py:86-101 | Every row whose name is not excluded has its entry. |
| TableUsage.DatasetActivitiesAppend | 3_bigquery_utils/table_usage_tracker.py:86 | Entries follow row order. |
| TableUsage.ActivitiesAppend | 3_bigquery_utils/table_usage_tracker.py:76 | Entries follow dataset order. |
| TableUsage.ActivitiesMembers | 3_bigquery_utils/table_usage_tracker.py:76-104 | The list holds exactly the entries of non-excluded rows of found datasets. |
| TableUsage.MissingDatasetSkipped | 3_bigquery_utils/table_usage_tracker.py:83-85 | A dataset that is not found contributes no entries. |
| TableUsage.FormatTimestamp | 3_bigquery_utils/table_usage_tracker.py:234-237 | A missing time gives an empty cell; a present one gives its ISO text. |
| TableUsage.RowKeysAreFieldNames | 3_bigquery_utils/table_usage_tracker.py:122-130 | The row's keys are the CSV header's seven field names, in header order, each once. |
| TableUsage.ActivityToRow | 3_bigquery_utils/table_usage_tracker.py:222-231 | Every header key is present. The names are copied; each time is its ISO text, or empty when missing; the counts are kept as they are. |
| TableUsage.FormatTimestampInjective | 3_bigquery_utils/table_usage_tracker.py:234-237 | Since ISO text is never empty, a time can be read back from its cell. |
| TableUsage.ActivityRowDeterminesActivity | 3_bigquery_utils/table_usage_tracker.py:222-237 | The row loses nothing: two entries with the same row are the same entry. |
| CloudRun.ServiceName | 4_cloudrun_utils/fetch_cloudrun_services.py:123 | The reported name is the record's name, or `unknown` when it has none. |
| CloudRun.FirstContainer | 4_cloudrun_utils/fetch_cloudrun_services.py:119-120 | The first listed container, or an empty one when none is listed. |
| CloudRun.ServiceUrls | 4_cloudrun_utils/fetch_cloudrun_services.py:126-132 | At most two URLs, without duplicates. A non-empty status URL comes first. A URL is listed exactly when it is a non-empty status or address URL. |
| CloudRun.EnvPairs | 4_cloudrun_utils/fetch_cloudrun_services.py:144-145 | One name/value assignment per declared variable, with a missing name or value read as empty. |
| CloudRun.AnyReady | 4_cloudrun_utils/fetch_cloudrun_services.py:186-189 | True exactly when some condition has type `Ready` and status `True`. |
| CloudRun.KeyInjective | 4_cloudrun_utils/fetch_cloudrun_services.py:148-190 | Different summary fields are written under different keys. |
| CloudRun.KeysAreSummaryKeys | 4_cloudrun_utils/fetch_cloudrun_services.py:148-190 | The keys are exactly the twenty the summary dictionary lists, in its order, and every field has one. |
| CloudRun.Simplified | 4_cloudrun_utils/fetch_cloudrun_services.py:148-190 | Before `None` values are dropped, every key is present. |
| CloudRun.DropNulls | 4_cloudrun_utils/fetch_cloudrun_services.py:193 | A key is kept exactly when its value is not `None`, and kept values are unchanged. |
| CloudRun.ExtractServiceMetadata | 4_cloudrun_utils/fetch_cloudrun_services.py:99-195 | The summary holds no `None` value. A key is present exactly when its value in the full dictionary is not `None`, and it keeps that value. |
| CloudRun.ExtractName | 4_cloudrun_utils/fetch_cloudrun_services.py:149-154 | The name, project and region are always reported. The name is `unknown` when the record has none. |
| CloudRun.ExtractUrls | 4_cloudrun_utils/fetch_cloudrun_services.py:150-151 | The URL list is always reported. `primary_url` is its first entry and is absent exactly when the list is empty. |
| CloudRun.ExtractAuthentication | 4_cloudrun_utils/fetch_cloudrun_services.py:171-173 | The service is `public` exactly when the IAM-disabled annotation is `true`, and `authenticated` otherwise. |
| CloudRun.ExtractCpuFlags | 4_cloudrun_utils/fetch_cloudrun_services.py:174-181 | CPU throttling is off only when its annotation is exactly `false`, so a missing annotation leaves it on. The startup boost is on only when its annotation is exactly `true`. |
| CloudRun.ExtractReady | 4_cloudrun_utils/fetch_cloudrun_services.py:186-189 | The service is ready exactly when some condition is `Ready`/`True`. With no conditions it is not ready. |
| CloudRun.ExtractEnvironment | 4_cloudrun_utils/fetch_cloudrun_services.py:143-145 | Environment variables are reported exactly when the first container declares some. Every declared name is a key, and a name's last declaration gives its value. |
| CloudRun.ExtractResources | 4_cloudrun_utils/fetch_cloudrun_services.py:156-159 | `resources` is always reported, an object with both `cpu` and `memory`. An inner value is `null` exactly when the container sets no such limit, and otherwise is the limit's text. |
| CloudRun.ExtractScaling | 4_cloudrun_utils/fetch_cloudrun_services.py:160-167 | `scaling` is always reported, an object with both `min_instances` and `max_instances`. An inner value is `null` exactly when the template lacks that annotation, and otherwise is its text. |
| CloudRun.ExtractTemplateFields | 4_cloudrun_utils/fetch_cloudrun_services.py:152-169 | The image, service account, timeout and concurrency are reported exactly when the record has them. |
| CloudRun.ExtractStatusFields | 4_cloudrun_utils/fetch_cloudrun_services.py:170-185 | The ingress, creation time, generation and latest revision are reported exactly when the record has them. |
| CloudRun.ProcessServices | 4_cloudrun_utils/fetch_cloudrun_services.py:264-276 | No more summaries than services. Each summary is that of a listed service whose name is not skipped. |
| CloudRun.ProcessServicesAppend | 4_cloudrun_utils/fetch_cloudrun_services.py:265 | Processing two parts of a listing and concatenating gives the same summaries, so listing order is kept. |
| CloudRun.ProcessServicesNeverSkipped | 4_cloudrun_utils/fetch_cloudrun_services.py:269-271 | No summary carries a skipped name. |
| CloudRun.ProcessServicesKeeps | 4_cloudrun_utils/fetch_cloudrun_services.py:269-276 | Every service whose name is not skipped has its summary in the output. |
| CloudRun.ProcessServicesSkipNothing | 4_cloudrun_utils/config.py:18 | With the configured empty skip list, every service is summarised, one for one, in order. |
| PrMetadata.ZuluToOffset | 5_git_utils/fetch_pr_metadata.py:116 | The result contains no `Z`, and text without a `Z` is unchanged. |
| PrMetadata.ZuluToOffsetAppend | 5_git_utils/fetch_pr_metadata.py:116 | Replacement works piecewise over concatenation. |
| PrMetadata.ZuluSuffix | 5_git_utils/fetch_pr_metadata.py:116 | A trailing `Z` becomes the explicit offset `+00:00`. |
| PrMetadata.Cutoff | 5_git_utils/fetch_pr_metadata.py:88 | The cutoff lies exactly the look-back hours before now, and not after now. |
| PrMetadata.FirstUnreadable | 5_git_utils/fetch_pr_metadata.py:112-117 | The position of the first pull request whose update time cannot be read; every earlier one reads. |
| PrMetadata.FilterByUpdated | 5_git_utils/fetch_pr_metadata.py:111-118 | The filter fails exactly when some update time is present but unreadable. The error is that of the first such time: the message of `fromisoformat`'s `ValueError` when it rejects the time, or `can't compare offset-naive and offset-aware datetimes` when it is naive. Otherwise the filter keeps exactly the pull requests updated at or after the cutoff, and never more than it was given. |
| PrMetadata.FilterAppend | 5_git_utils/fetch_pr_metadata.py:112 | Filtering two parts of a listing and concatenating gives the same result, so listing order is kept. |
| PrMetadata.RejectedUpdateTimeReported | 5_git_utils/fetch_pr_metadata.py:113-116 | When the first pull request's update time is rejected by `fromisoformat`, the listing fails with that rejection's own message. |
| PrMetadata.NoUpdateTimeDropped | 5_git_utils/fetch_pr_metadata.py:113-114 | A pull request without an update time is never kept. |
| PrMetadata.StatusOf | 5_git_utils/fetch_pr_metadata.py:170-179 | `merged` and `open` are recognised regardless of case. Every other state, the empty one included, is `closed`. |
| PrMetadata.GhStates | 5_git_utils/fetch_pr_metadata.py:170-179 | The states `MERGED`, `OPEN`, `CLOSED` and a missing state map to merged, open, closed and closed. |
| PrMetadata.MergeTimestamp | 5_git_utils/fetch_pr_metadata.py:181-188 | The cell is empty exactly for an unmerged pull request. A time whose reading raises any error is passed through as given. A readable one is its wall-clock reading followed by ` UTC`. |
| PrMetadata.ZuluMergeTime | 5_git_utils/fetch_pr_metadata.py:181-188 | A merge time ending in `Z`, as GitHub writes it, prints its UTC instant, so the ` UTC` label is true. |
| PrMetadata.MergeTimeIgnoresOffset | 5_git_utils/fetch_pr_metadata.py:184-186 | Two merge times with the same clock reading print alike, even when their offsets differ and so do their instants: the offset is not converted. |
| PrMetadata.ProcessPr | 5_git_utils/fetch_pr_metadata.py:156-201 | The title and branch are copied. The status is one of the three and agrees with the state. The merge time is the `MergeTimestamp` cell: empty for an unmerged pull request, the raw text when it does not read, and otherwise the wall-clock time plus ` UTC`. The first comment is the fetched body or empty. |
| PrMetadata.CsvRow | 5_git_utils/fetch_pr_metadata.py:231-234 | A row has one cell per column, each the record's value for that column. |
| PrMetadata.CsvTable | 5_git_utils/fetch_pr_metadata.py:223-234 | The file is the five-column header, then one row per record, in order. |
| PrMetadata.CsvIgnoresExtraKeys | 5_git_utils/fetch_pr_metadata.py:232 | The number and URL never reach the file. |
| PrMetadata.PrRow | 5_git_utils/fetch_pr_metadata.py:156-198 | A pull request's row has five cells: its title, its branch, the status its state gives, its merge-time cell and its fetched body. |
| PrMetadata.RecordRows | 5_git_utils/fetch_pr_metadata.py:280-290 | One row per kept pull request, in order. Each row has five cells: title, branch, the status its state gives, the merge-time cell and the fetched body. |
| PrMetadata.Report | 5_git_utils/fetch_pr_metadata.py:273-299 | The run fails exactly when the filter does. Nothing is written exactly when nothing is kept. Otherwise the file is the header `pr_name, branch_name, status, merge_timestamp, first_comment` followed by the rows of the kept pull requests. |

## Left out

- All I/O is left out: BigQuery queries, the `gcloud` and `gh` subprocesses, the file system, logging, argument parsing. Query results are parameters: schemas, job rows, the `tablesOf` function and the raw records.
- The `TableComparator` methods that send queries are left out, and so are the orchestration in `execute_comparison` and `main`. For three of them the query text comes from the builders, which are modelled: `get_row_count` (line 173), `get_sample_differences` (lines 260 and 265) and `export_all_differences` (lines 287, 295 and 304). The other two build their SQL inline, and that text is not modelled: the `INFORMATION_SCHEMA.COLUMNS` query of `get_table_schema` (lines 162-167) and the `EXISTS ... EXCEPT DISTINCT` query of `check_data_differences` (lines 231-244).
- Writing CSV and JSON files is left out. So are CSV quoting and JSON key order; rows and summaries are modelled as cell sequences and maps.
- Parsing and formatting ISO-8601 time stamps, and `datetime.now()`, are left out. They are parameters: `parseIso`, `formatWall`, `now`.
- Text is modelled over ASCII: `strip` treats ASCII whitespace as space and `lower` maps `A`–`Z`. Unicode case mapping and Unicode whitespace are left out.
- A record field of the wrong JSON type, which would make the source raise, is left out. The `try`/`except` around each service and pull request in the processing loops is left out too: the model's operations are total.
- `CloudRun.ServiceName`: an explicit JSON `null` name is read as a missing one, giving `unknown`. The source's `metadata.get("name", "unknown")` returns `None` instead, and the summary then drops the `name` key.
- `CloudRun.EnvPairs`: an explicit `null` variable name becomes the key `None` in the source. The model reads it as a missing name, the empty string.
- `PrMetadata.ProcessPr`: an explicit `null` state makes `.lower()` raise, and the processing loop skips that pull request (lines 288-290). The model reads it as a missing state, giving `closed`. An explicit `null` in any other pull-request field gives the same cells as a missing key.
- `PrMetadata.ProcessPr`: the first comment is a parameter standing for `fetch_pr_details`. That function runs `gh pr view` and strips the body; it is a subprocess call.
- `PrMetadata.FilterByUpdated`: the `--limit 1000` of `gh pr list` is not modelled; the listing is whatever the parameter holds.
- `QueryBuilder.BuildUnionQuery`: with no queries and an order-by clause the text is `SELECT * FROM () <clause>`. The contract states only how it starts and ends.
- `TableUsage.FetchLastQueryTimes` models the returned lookup as a function of the returned rows. The grouping by `MAX(creation_time)` happens inside BigQuery and is not modelled.
- `generate_bq_table_summary_stats.py`, `run_bq_schema_queries.py` and the `config.py` module of the Cloud Run script are not part of this model. Only the skip list `SKIP_SERVICES = []` is used, as `CloudRun.SkipServices`.

## Findings

| source | as written | input that shows it | evidently intended | confidence | as-written member | corrected member |
|---|---|---|---|---|---|---|
| 3_bigquery_utils/compare_table_contents.py:222-224 | `schemas_identical` compares only the schema lengths and the types of common columns | `[("a","INT64"),("b","INT64")]` vs `[("a","INT64"),("c","INT64")]` gives identical, although `b` and `c` each exist in one table only | identical only when neither table has a column the other lacks | not executed | TableComparator.SchemasIdenticalIgnoresRenamedColumn | TableComparator.SchemasIdenticalCorrectedSound |
| 3_bigquery_utils/compare_table_contents.py:54-55 | the keyword test is a plain `startswith`, not bounded by a word | the where clause `wherever` (or `whereabouts = 1`) is returned without a `where` keyword | prefix the keyword unless the clause opens with the whole word | not executed | QueryBuilder.KeywordTestNotWordBounded | QueryBuilder.BoundedPrefixesLongerWord |
| 3_bigquery_utils/compare_table_contents.py:51-56 | the emptiness test runs before `strip()` | the clause `"   "` becomes `"where "`, an empty `WHERE`, and normalising that again gives `"where"` | drop a whitespace-only clause like an empty one, making normalisation idempotent | not executed | QueryBuilder.WhitespaceClauseNotFixpoint | QueryBuilder.BoundedIdempotent |

In each row, the as-written member is proved about the model of the code as it
stands: `NormalizeClause` and `AnalyzeSchemas`. The corrected member is proved
about the intended definition: `NormalizeClauseBounded` or
`SchemasIdenticalCorrected`. No other part of the model consumes a normalised
clause or the `schemas_identical` flag, so there is no downstream user to switch
to the corrected definitions.

=== FILE: assoc.dfy ===
/** Building a dictionary from a list of key/value pairs, as Python's `dict(pairs)`
    and a loop of `d[k] = v` assignments do: a later pair for the same key
    overwrites an earlier one. */
module Assoc {

  /** The pair at index `i` is the last one in `pairs` with its key. */
  predicate IsLastForKey<K(==), V>(pairs: seq<(K, V)>, i: int) {
    && 0 <= i < |pairs|
    && forall j :: i < j < |pairs| ==> pairs[j].0 != pairs[i].0
  }

  /** Some pair in `pairs` has key `k`. */
  predicate HasKey<K(==), V>(pairs: seq<(K, V)>, k: K) {
    exists i :: 0 <= i < |pairs| && pairs[i].0 == k
  }

  /** `dict(pairs)`: every key of `pairs` is present, and holds the value of
      the last pair with that key. */
  function LastWins<K(==), V>(pairs: seq<(K, V)>): (m: map<K, V>)
    ensures forall i :: 0 <= i < |pairs| ==> pairs[i].0 in m
    ensures forall i :: IsLastForKey(pairs, i) ==> m[pairs[i].0] == pairs[i].1
    decreases |pairs|
  {
    if |pairs| == 0 then map[]
    else
      var init := pairs[..|pairs| - 1];
      var last := pairs[|pairs| - 1];
      assert forall i :: 0 <= i < |init| ==> init[i] == pairs[i];
      assert forall i :: IsLastForKey(pairs, i) && i < |init| ==> IsLastForKey(init, i);
      LastWins(init)[last.0 := last.1]
  }

  /** The dictionary has no key that no pair supplied. */
  lemma {:induction false} LastWinsKeys<K, V>(pairs: seq<(K, V)>, k: K)
    requires k in LastWins(pairs)
    ensures HasKey(pairs, k)
    decreases |pairs|
  {
    var init := pairs[..|pairs| - 1];
    var last := pairs[|pairs| - 1];
    if k != last.0 {
      LastWinsKeys(init, k);
      var i :| 0 <= i < |init| && init[i].0 == k;
      assert pairs[i].0 == k;
    } else {
      assert pairs[|pairs| - 1].0 == k;
    }
  }

  /** An assignment made later always decides the value: whatever came before
      and whatever other keys follow. */
  lemma {:induction false} LaterAssignmentWins<K, V>(before: seq<(K, V)>, k: K, v: V, after: seq<(K, V)>)
    requires forall j :: 0 <= j < |after| ==> after[j].0 != k
    ensures k in LastWins(before + [(k, v)] + after)
    ensures LastWins(before + [(k, v)] + after)[k] == v
  {
    var pairs := before + [(k, v)] + after;
    assert pairs[|before|] == (k, v);
    assert forall j :: |before| < j < |pairs| ==> pairs[j] == after[j - |before| - 1];
    assert IsLastForKey(pairs, |before|);
  }
}

=== FILE: cloudrun.dfy ===
/** The Cloud Run metadata fetcher: each raw service record that `gcloud run
    services list` returns is flattened into a summary dictionary, and the
    services named in the skip list are left out of the output. */
module CloudRun {
  import opened Wrappers
  import Text
  import Assoc

  /** Annotation names the summary reads. */
  const IngressAnnotation := "run.googleapis.com/ingress"
  const InvokerIamDisabledAnnotation := "run.googleapis.com/invoker-iam-disabled"
  const CpuThrottlingAnnotation := "run.googleapis.com/cpu-throttling"
  const StartupCpuBoostAnnotation := "run.googleapis.com/startup-cpu-boost"
  const MinScaleAnnotation := "autoscaling.knative.dev/minScale"
  const MaxScaleAnnotation := "autoscaling.knative.dev/maxScale"

  /** The configured skip list (empty in the shipped configuration). */
  const SkipServices: seq<string> := []

  /** A JSON value of the summary. `JNull` is Python's None. */
  datatype Json =
    | JNull
    | JBool(flag: bool)
    | JInt(number: int)
    | JStr(text: string)
    | JStrs(items: seq<string>)
    | JObj(fields: map<string, Json>)

  /** `None` becomes `null`; a present value is kept. */
  function NullableStr(o: Option<string>): (r: Json)
    ensures r == JNull <==> o.None?
    ensures o.Some? ==> r == JStr(o.value)
  {
    match o
    case None => JNull
    case Some(s) => JStr(s)
  }

  function NullableInt(o: Option<int>): (r: Json)
    ensures r == JNull <==> o.None?
    ensures o.Some? ==> r == JInt(o.value)
  {
    match o
    case None => JNull
    case Some(i) => JInt(i)
  }

  /** `d.get(key)` on a string-valued dictionary. */
  function Get(d: map<string, string>, key: string): (r: Option<string>)
    ensures r.Some? <==> key in d
    ensures r.Some? ==> r.value == d[key]
  {
    if key in d then Some(d[key]) else None
  }

  // ---------------------------------------------------------------------------
  // The raw record. `None` is a key the gcloud output does not have (an
  // explicit JSON null is outside the model); a missing nested object or list
  // is the empty one, as the `.get(key, {})` and `.get(key, [])` chains treat
  // it.
  // ---------------------------------------------------------------------------

  datatype EnvVar = EnvVar(name: Option<string>, value: Option<string>)

  datatype Container = Container(
    image: Option<string>,
    limits: map<string, string>,
    env: seq<EnvVar>)

  /** One entry of `status.conditions`; `kind` is the condition's `type`. */
  datatype Condition = Condition(kind: Option<string>, status: Option<string>)

  datatype RawService = RawService(
    // metadata
    name: Option<string>,
    annotations: map<string, string>,
    creationTimestamp: Option<string>,
    generation: Option<int>,
    // spec.template
    templateAnnotations: map<string, string>,
    serviceAccountName: Option<string>,
    timeoutSeconds: Option<int>,
    containerConcurrency: Option<int>,
    containers: seq<Container>,
    // status
    url: Option<string>,
    addressUrl: Option<string>,
    latestReadyRevisionName: Option<string>,
    conditions: seq<Condition>)

  /** The name the fetcher reports and skips by. */
  function ServiceName(service: RawService): (r: string)
    ensures service.name.Some? ==> r == service.name.value
    ensures service.name.None? ==> r == "unknown"
  {
    service.name.GetOr("unknown")
  }

  /** The first container, or an empty one when the template lists none. */
  function FirstContainer(service: RawService): (c: Container)
    ensures |service.containers| > 0 ==> c == service.containers[0]
    ensures |service.containers| == 0 ==> c.image.None? && c.limits == map[] && c.env == []
  {
    if |service.containers| > 0 then service.containers[0] else Container(None, map[], [])
  }

  // ---------------------------------------------------------------------------
  // The pieces of the summary
  // ---------------------------------------------------------------------------

  /** The service URLs: the status URL first when it is given, then the
      address URL when it is given and differs. */
  function ServiceUrls(statusUrl: Option<string>, addressUrl: Option<string>): (urls: seq<string>)
    ensures |urls| <= 2
    ensures forall i, j :: 0 <= i < j < |urls| ==> urls[i] != urls[j]
    ensures Text.Truthy(statusUrl) ==> |urls| > 0 && urls[0] == statusUrl.value
    ensures forall u :: u in urls <==>
              (Text.Truthy(statusUrl) && u == statusUrl.value) || (Text.Truthy(addressUrl) && u == addressUrl.value)
  {
    var first := if Text.Truthy(statusUrl) then [statusUrl.value] else [];
    if Text.Truthy(addressUrl) && addressUrl.value !in first then first + [addressUrl.value] else first
  }

  /** `env_vars`: one assignment per entry, a missing name or value read as
      the empty string, so a later entry overrides an earlier one. */
  function EnvPairs(env: seq<EnvVar>): (pairs: seq<(string, string)>)
    ensures |pairs| == |env|
    ensures forall i :: 0 <= i < |env| ==> pairs[i] == (env[i].name.GetOr(""), env[i].value.GetOr(""))
  {
    seq(|env|, i requires 0 <= i < |env| => (env[i].name.GetOr(""), env[i].value.GetOr("")))
  }

  function EnvJson(env: map<string, string>): (r: Json)
    ensures r.JObj? && r.fields.Keys == env.Keys
    ensures forall k :: k in env ==> r.fields[k] == JStr(env[k])
  {
    JObj(map k | k in env :: JStr(env[k]))
  }

  /** Some condition says the service is ready. */
  predicate IsReadyCondition(c: Condition) {
    c.kind == Some("Ready") && c.status == Some("True")
  }

  /** `any(...)` over the condition list, one condition at a time. */
  function AnyReady(conditions: seq<Condition>): (b: bool)
    ensures b <==> exists i :: 0 <= i < |conditions| && IsReadyCondition(conditions[i])
  {
    if |conditions| == 0 then false
    else if IsReadyCondition(conditions[0]) then true
    else
      assert forall i :: 1 <= i < |conditions| ==> conditions[i] == conditions[1..][i - 1];
      AnyReady(conditions[1..])
  }

  /** The keys of the summary, in the order the source inserts them. */
  datatype Field =
    | Name | Urls | PrimaryUrl | Image | Region | Project | ServiceAccount
    | Resources | Scaling | TimeoutSeconds | ContainerConcurrency | Ingress
    | Authentication | CpuThrottling | StartupCpuBoost | EnvironmentVariables
    | Created | Generation | LatestRevision | Ready

  /** The JSON key each field is written under. */
  function Key(f: Field): string {
    match f
    case Name => "name"
    case Urls => "urls"
    case PrimaryUrl => "primary_url"
    case Image => "image"
    case Region => "region"
    case Project => "project"
    case ServiceAccount => "service_account"
    case Resources => "resources"
    case Scaling => "scaling"
    case TimeoutSeconds => "timeout_seconds"
    case ContainerConcurrency => "container_concurrency"
    case Ingress => "ingress"
    case Authentication => "authentication"
    case CpuThrottling => "cpu_throttling"
    case StartupCpuBoost => "startup_cpu_boost"
    case EnvironmentVariables => "environment_variables"
    case Created => "created"
    case Generation => "generation"
    case LatestRevision => "latest_revision"
    case Ready => "ready"
  }

  const AllFields: set<Field> := {
    Name, Urls, PrimaryUrl, Image, Region, Project, ServiceAccount,
    Resources, Scaling, TimeoutSeconds, ContainerConcurrency, Ingress,
    Authentication, CpuThrottling, StartupCpuBoost, EnvironmentVariables,
    Created, Generation, LatestRevision, Ready
  }

  lemma AllFieldsListed()
    ensures forall f: Field :: f in AllFields
  {
    forall f: Field ensures f in AllFields {
      match f {
        case Name => case Urls => case PrimaryUrl => case Image => case Region =>
        case Project => case ServiceAccount => case Resources => case Scaling =>
        case TimeoutSeconds => case ContainerConcurrency => case Ingress =>
        case Authentication => case CpuThrottling => case StartupCpuBoost =>
        case EnvironmentVariables => case Created => case Generation =>
        case LatestRevision => case Ready =>
      }
    }
  }

  /** The fields in the order the summary dictionary is built. */
  const FieldOrder: seq<Field> :=
    [Name, Urls, PrimaryUrl, Image, Region]
    + [Project, ServiceAccount, Resources, Scaling, TimeoutSeconds]
    + [ContainerConcurrency, Ingress, Authentication, CpuThrottling, StartupCpuBoost]
    + [EnvironmentVariables, Created, Generation, LatestRevision, Ready]

  /** The keys the summary dictionary is built with, in order. */
  const SummaryKeys: seq<string> :=
    ["name", "urls", "primary_url", "image", "region"]
    + ["project", "service_account", "resources", "scaling", "timeout_seconds"]
    + ["container_concurrency", "ingress", "authentication", "cpu_throttling", "startup_cpu_boost"]
    + ["environment_variables", "created", "generation", "latest_revision", "ready"]

  /** The field whose key has the given length and first character: no two
      keys agree on both. */
  function FieldOfSignature(length: int, first: char): Option<Field> {
    match (length, first)
    case (4, 'n') => Some(Name)
    case (4, 'u') => Some(Urls)
    case (11, 'p') => Some(PrimaryUrl)
    case (5, 'i') => Some(Image)
    case (6, 'r') => Some(Region)
    case (7, 'p') => Some(Project)
    case (15, 's') => Some(ServiceAccount)
    case (9, 'r') => Some(Resources)
    case (7, 's') => Some(Scaling)
    case (15, 't') => Some(TimeoutSeconds)
    case (21, 'c') => Some(ContainerConcurrency)
    case (7, 'i') => Some(Ingress)
    case (14, 'a') => Some(Authentication)
    case (14, 'c') => Some(CpuThrottling)
    case (17, 's') => Some(StartupCpuBoost)
    case (21, 'e') => Some(EnvironmentVariables)
    case (7, 'c') => Some(Created)
    case (10, 'g') => Some(Generation)
    case (15, 'l') => Some(LatestRevision)
    case (5, 'r') => Some(Ready)
    case _ => None
  }

  /** The field a summary key names, if any. */
  function FieldOfKey(k: string): (r: Option<Field>)
    ensures r.Some? ==> Key(r.value) == k
  {
    if |k| == 0 then None
    else
      match FieldOfSignature(|k|, k[0])
      case None => None
      case Some(f) => if Key(f) == k then Some(f) else None
  }

  /** The key a field is written under names that field back. */
  lemma KeyRoundTrip(f: Field)
    ensures FieldOfKey(Key(f)) == Some(f)
  {
  }

  /** `Key` is one to one: each field stands for its own key. */
  lemma KeyInjective()
    ensures forall f, g :: Key(f) == Key(g) ==> f == g
  {
    forall f, g | Key(f) == Key(g) ensures f == g {
      KeyRoundTrip(f);
      KeyRoundTrip(g);
    }
  }

  /** The fields' keys are exactly the keys the summary is built with, in
      the same order, and every field is among them. */
  lemma KeysAreSummaryKeys()
    ensures |FieldOrder| == |SummaryKeys|
    ensures forall i :: 0 <= i < |FieldOrder| ==> Key(FieldOrder[i]) == SummaryKeys[i]
    ensures forall f: Field :: f in FieldOrder
  {
    forall i | 0 <= i < |FieldOrder| ensures Key(FieldOrder[i]) == SummaryKeys[i] {
      if i < 10 {
        KeysOfFirstHalf(i);
      } else {
        KeysOfSecondHalf(i);
      }
    }
    FieldOrderComplete();
  }

  lemma KeysOfFirstHalf(i: int)
    requires 0 <= i < 10
    ensures Key(FieldOrder[i]) == SummaryKeys[i]
  {
  }

  lemma KeysOfSecondHalf(i: int)
    requires 10 <= i < 20
    ensures Key(FieldOrder[i]) == SummaryKeys[i]
  {
  }

  lemma FieldOrderComplete()
    ensures forall f: Field :: f in FieldOrder
  {
    forall f: Field ensures f in FieldOrder {
      match f {
        case Name => assert FieldOrder[0] == f;
        case Urls => assert FieldOrder[1] == f;
        case PrimaryUrl => assert FieldOrder[2] == f;
        case Image => assert FieldOrder[3] == f;
        case Region => assert FieldOrder[4] == f;
        case Project => assert FieldOrder[5] == f;
        case ServiceAccount => assert FieldOrder[6] == f;
        case Resources => assert FieldOrder[7] == f;
        case Scaling => assert FieldOrder[8] == f;
        case TimeoutSeconds => assert FieldOrder[9] == f;
        case ContainerConcurrency => assert FieldOrder[10] == f;
        case Ingress => assert FieldOrder[11] == f;
        case Authentication => assert FieldOrder[12] == f;
        case CpuThrottling => assert FieldOrder[13] == f;
        case StartupCpuBoost => assert FieldOrder[14] == f;
        case EnvironmentVariables => assert FieldOrder[15] == f;
        case Created => assert FieldOrder[16] == f;
        case Generation => assert FieldOrder[17] == f;
        case LatestRevision => assert FieldOrder[18] == f;
        case Ready => assert FieldOrder[19] == f;
      }
    }
  }

  /** The value the source puts under each key before `None` values are
      dropped. */
  function FieldValue(service: RawService, project: string, region: string, f: Field): Json {
    var container := FirstContainer(service);
    var urls := ServiceUrls(service.url, service.addressUrl);
    match f
    case Name => JStr(ServiceName(service))
    case Urls => JStrs(urls)
    case PrimaryUrl => if |urls| > 0 then JStr(urls[0]) else JNull
    case Image => NullableStr(container.image)
    case Region => JStr(region)
    case Project => JStr(project)
    case ServiceAccount => NullableStr(service.serviceAccountName)
    case Resources =>
      JObj(map["cpu" := NullableStr(Get(container.limits, "cpu")),
               "memory" := NullableStr(Get(container.limits, "memory"))])
    case Scaling =>
      JObj(map["min_instances" := NullableStr(Get(service.templateAnnotations, MinScaleAnnotation)),
               "max_instances" := NullableStr(Get(service.templateAnnotations, MaxScaleAnnotation))])
    case TimeoutSeconds => NullableInt(service.timeoutSeconds)
    case ContainerConcurrency => NullableInt(service.containerConcurrency)
    case Ingress => NullableStr(Get(service.annotations, IngressAnnotation))
    case Authentication =>
      JStr(if Get(service.annotations, InvokerIamDisabledAnnotation) == Some("true") then "public" else "authenticated")
    case CpuThrottling => JBool(Get(service.templateAnnotations, CpuThrottlingAnnotation).GetOr("true") != "false")
    case StartupCpuBoost => JBool(Get(service.templateAnnotations, StartupCpuBoostAnnotation) == Some("true"))
    case EnvironmentVariables =>
      var env := Assoc.LastWins(EnvPairs(container.env));
      if |env| > 0 then EnvJson(env) else JNull
    case Created => NullableStr(service.creationTimestamp)
    case Generation => NullableInt(service.generation)
    case LatestRevision => NullableStr(service.latestReadyRevisionName)
    case Ready => JBool(AnyReady(service.conditions))
  }

  /** The summary before `None` values are dropped: every field is present. */
  function Simplified(service: RawService, project: string, region: string): (d: map<Field, Json>)
    ensures forall f :: f in d
  {
    AllFieldsListed();
    map f | f in AllFields :: FieldValue(service, project, region, f)
  }

  /** The dictionary comprehension that drops `None` values. */
  function DropNulls(d: map<Field, Json>): (r: map<Field, Json>)
    ensures forall f :: f in r <==> f in d && d[f] != JNull
    ensures forall f :: f in r ==> r[f] == d[f]
  {
    map f | f in d && d[f] != JNull :: d[f]
  }

  /** `extract_service_metadata`: the summary holds no `None` value. */
  function ExtractServiceMetadata(service: RawService, project: string, region: string): (r: map<Field, Json>)
    ensures forall f :: f in r ==> r[f] != JNull
    ensures forall f :: f in r <==> FieldValue(service, project, region, f) != JNull
    ensures forall f :: f in r ==> r[f] == FieldValue(service, project, region, f)
  {
    DropNulls(Simplified(service, project, region))
  }

  // ---------------------------------------------------------------------------
  // What the summary says about the raw record
  // ---------------------------------------------------------------------------

  /** The name is always reported, `"unknown"` when the record has none; the
      project and region are the ones the fetch was made for. */
  lemma ExtractName(service: RawService, project: string, region: string)
    ensures var r := ExtractServiceMetadata(service, project, region);
            && Name in r && Project in r && Region in r
            && r[Name] == JStr(service.name.GetOr("unknown"))
            && r[Project] == JStr(project) && r[Region] == JStr(region)
  {
    var d := Simplified(service, project, region);
    assert d[Name] == JStr(ServiceName(service));
    assert d[Project] == JStr(project) && d[Region] == JStr(region);
  }

  /** The URL list is always reported; `primary_url` is its first entry and is
      absent exactly when the list is empty. */
  lemma ExtractUrls(service: RawService, project: string, region: string)
    ensures var r := ExtractServiceMetadata(service, project, region);
            var urls := ServiceUrls(service.url, service.addressUrl);
            && Urls in r && r[Urls] == JStrs(urls)
            && (PrimaryUrl in r <==> |urls| > 0)
            && (PrimaryUrl in r ==> r[PrimaryUrl] == JStr(urls[0]))
  {
    var d := Simplified(service, project, region);
    var urls := ServiceUrls(service.url, service.addressUrl);
    assert d[Urls] == JStrs(urls);
    assert d[PrimaryUrl] == if |urls| > 0 then JStr(urls[0]) else JNull;
  }

  /** The service is public exactly when IAM invocation checks are disabled
      by the annotation `"true"`; any other value, or none, is authenticated. */
  lemma ExtractAuthentication(service: RawService, project: string, region: string)
    ensures var r := ExtractServiceMetadata(service, project, region);
            && Authentication in r
            && (r[Authentication] == JStr("public") || r[Authentication] == JStr("authenticated"))
            && (r[Authentication] == JStr("public") <==>
                  InvokerIamDisabledAnnotation in service.annotations
                  && service.annotations[InvokerIamDisabledAnnotation] == "true")
  {
    var d := Simplified(service, project, region);
    assert d[Authentication] == JStr(if Get(service.annotations, InvokerIamDisabledAnnotation) == Some("true")
                                       then "public" else "authenticated");
  }

  /** CPU throttling is on unless the annotation says exactly `"false"` (a
      missing annotation leaves it on); the startup boost is on only when its
      annotation says exactly `"true"`. */
  lemma ExtractCpuFlags(service: RawService, project: string, region: string)
    ensures var r := ExtractServiceMetadata(service, project, region);
            var ann := service.templateAnnotations;
            && CpuThrottling in r && StartupCpuBoost in r
            && (r[CpuThrottling] == JBool(false) <==>
                  CpuThrottlingAnnotation in ann && ann[CpuThrottlingAnnotation] == "false")
            && (CpuThrottlingAnnotation !in ann ==> r[CpuThrottling] == JBool(true))
            && (r[StartupCpuBoost] == JBool(true) <==>
                  StartupCpuBoostAnnotation in ann && ann[StartupCpuBoostAnnotation] == "true")
            && r[CpuThrottling].JBool? && r[StartupCpuBoost].JBool?
  {
    var d := Simplified(service, project, region);
    var ann := service.templateAnnotations;
    assert d[CpuThrottling] == JBool(Get(ann, CpuThrottlingAnnotation).GetOr("true") != "false");
    assert d[StartupCpuBoost] == JBool(Get(ann, StartupCpuBoostAnnotation) == Some("true"));
  }

  /** Ready exactly when some condition has type `"Ready"` and status
      `"True"`; a service without conditions is not ready. */
  lemma ExtractReady(service: RawService, project: string, region: string)
    ensures var r := ExtractServiceMetadata(service, project, region);
            && Ready in r
            && (r[Ready] == JBool(true) <==>
                  exists i :: 0 <= i < |service.conditions|
                    && service.conditions[i].kind == Some("Ready")
                    && service.conditions[i].status == Some("True"))
            && (service.conditions == [] ==> r[Ready] == JBool(false))
  {
    var d := Simplified(service, project, region);
    assert d[Ready] == JBool(AnyReady(service.conditions));
  }

  /** The environment is reported only when the first container declares
      variables, and a later declaration of a name overrides an earlier one. */
  lemma ExtractEnvironment(service: RawService, project: string, region: string)
    ensures var r := ExtractServiceMetadata(service, project, region);
            var env := FirstContainer(service).env;
            && (EnvironmentVariables in r <==> |env| > 0)
            && (EnvironmentVariables in r ==>
                  && r[EnvironmentVariables].JObj?
                  && (forall i :: 0 <= i < |env| ==> env[i].name.GetOr("") in r[EnvironmentVariables].fields)
                  && (forall i :: 0 <= i < |env| && (forall j :: i < j < |env| ==> env[j].name.GetOr("") != env[i].name.GetOr(""))
                        ==> r[EnvironmentVariables].fields[env[i].name.GetOr("")] == JStr(env[i].value.GetOr(""))))
  {
    var d := Simplified(service, project, region);
    var env := FirstContainer(service).env;
    var pairs := EnvPairs(env);
    var vars := Assoc.LastWins(pairs);
    assert d[EnvironmentVariables] == if |vars| > 0 then EnvJson(vars) else JNull;
    if |env| > 0 {
      assert pairs[0].0 in vars;
    }
    forall i | 0 <= i < |env| && (forall j :: i < j < |env| ==> env[j].name.GetOr("") != env[i].name.GetOr(""))
      ensures Assoc.IsLastForKey(pairs, i)
    {
    }
  }

  /** The resource limits are always reported, as an object with both of its
      keys; an inner value is `null` exactly when the container sets no such
      limit, since the dropping of `None` values does not reach into nested
      objects. */
  lemma ExtractResources(service: RawService, project: string, region: string)
    ensures var r := ExtractServiceMetadata(service, project, region);
            var limits := FirstContainer(service).limits;
            && Resources in r
            && r[Resources].JObj? && r[Resources].fields.Keys == {"cpu", "memory"}
            && r[Resources].fields["cpu"] == (if "cpu" in limits then JStr(limits["cpu"]) else JNull)
            && r[Resources].fields["memory"] == (if "memory" in limits then JStr(limits["memory"]) else JNull)
  {
    var limits := FirstContainer(service).limits;
    assert FieldValue(service, project, region, Resources) ==
      JObj(map["cpu" := NullableStr(Get(limits, "cpu")), "memory" := NullableStr(Get(limits, "memory"))]);
  }

  /** The scaling bounds are always reported, as an object with both of its
      keys; an inner value is `null` exactly when the template has no such
      annotation. */
  lemma ExtractScaling(service: RawService, project: string, region: string)
    ensures var r := ExtractServiceMetadata(service, project, region);
            var ann := service.templateAnnotations;
            && Scaling in r
            && r[Scaling].JObj? && r[Scaling].fields.Keys == {"min_instances", "max_instances"}
            && r[Scaling].fields["min_instances"] ==
                 (if MinScaleAnnotation in ann then JStr(ann[MinScaleAnnotation]) else JNull)
            && r[Scaling].fields["max_instances"] ==
                 (if MaxScaleAnnotation in ann then JStr(ann[MaxScaleAnnotation]) else JNull)
  {
    var ann := service.templateAnnotations;
    assert FieldValue(service, project, region, Scaling) ==
      JObj(map["min_instances" := NullableStr(Get(ann, MinScaleAnnotation)),
               "max_instances" := NullableStr(Get(ann, MaxScaleAnnotation))]);
  }

  /** The optional fields taken from the service template are reported
      exactly when the record has them. */
  lemma ExtractTemplateFields(service: RawService, project: string, region: string)
    ensures var r := ExtractServiceMetadata(service, project, region);
            var container := FirstContainer(service);
            && (Image in r <==> container.image.Some?)
            && (container.image.Some? ==> r[Image] == JStr(container.image.value))
            && (ServiceAccount in r <==> service.serviceAccountName.Some?)
            && (TimeoutSeconds in r <==> service.timeoutSeconds.Some?)
            && (ContainerConcurrency in r <==> service.containerConcurrency.Some?)
  {
    var d := Simplified(service, project, region);
    assert d[Image] == NullableStr(FirstContainer(service).image);
    assert d[ServiceAccount] == NullableStr(service.serviceAccountName);
    assert d[TimeoutSeconds] == NullableInt(service.timeoutSeconds);
    assert d[ContainerConcurrency] == NullableInt(service.containerConcurrency);
  }

  /** The optional fields taken from the service's metadata and status are
      reported exactly when the record has them. */
  lemma ExtractStatusFields(service: RawService, project: string, region: string)
    ensures var r := ExtractServiceMetadata(service, project, region);
            && (Ingress in r <==> IngressAnnotation in service.annotations)
            && (Created in r <==> service.creationTimestamp.Some?)
            && (Generation in r <==> service.generation.Some?)
            && (LatestRevision in r <==> service.latestReadyRevisionName.Some?)
  {
    var d := Simplified(service, project, region);
    assert d[Ingress] == NullableStr(Get(service.annotations, IngressAnnotation));
    assert d[Created] == NullableStr(service.creationTimestamp);
    assert d[Generation] == NullableInt(service.generation);
    assert d[LatestRevision] == NullableStr(service.latestReadyRevisionName);
  }

  // ---------------------------------------------------------------------------
  // The processing loop of the fetcher
  // ---------------------------------------------------------------------------

  /** `m` is the summary of some service of the listing that is not skipped. */
  ghost predicate SummaryOfUnskipped(services: seq<RawService>, project: string, region: string,
                                     skip: seq<string>, m: map<Field, Json>)
  {
    exists j :: 0 <= j < |services| && ServiceName(services[j]) !in skip
                && m == ExtractServiceMetadata(services[j], project, region)
  }

  lemma SummaryOfPrefix(services: seq<RawService>, n: nat, project: string, region: string, skip: seq<string>)
    requires n <= |services|
    ensures forall m :: SummaryOfUnskipped(services[..n], project, region, skip, m)
                    ==> SummaryOfUnskipped(services, project, region, skip, m)
  {
    forall m | SummaryOfUnskipped(services[..n], project, region, skip, m)
      ensures SummaryOfUnskipped(services, project, region, skip, m)
    {
      var j :| 0 <= j < n && ServiceName(services[..n][j]) !in skip
               && m == ExtractServiceMetadata(services[..n][j], project, region);
      assert services[..n][j] == services[j];
    }
  }

  /** The summaries the fetcher writes, in listing order: a service whose
      name is on the skip list is passed over. */
  function ProcessServices(services: seq<RawService>, project: string, region: string, skip: seq<string>)
    : (out: seq<map<Field, Json>>)
    ensures |out| <= |services|
    ensures forall i :: 0 <= i < |out| ==> SummaryOfUnskipped(services, project, region, skip, out[i])
    decreases |services|
  {
    if |services| == 0 then []
    else
      var init := services[..|services| - 1];
      var last := services[|services| - 1];
      var before := ProcessServices(init, project, region, skip);
      SummaryOfPrefix(services, |services| - 1, project, region, skip);
      if ServiceName(last) in skip then before
      else
        var out := before + [ExtractServiceMetadata(last, project, region)];
        assert forall i :: 0 <= i < |before| ==> out[i] == before[i];
        assert SummaryOfUnskipped(services, project, region, skip, out[|before|]) by {
          assert services[|services| - 1] == last;
        }
        out
  }

  /** Processing a listing in two parts and concatenating gives the same
      summaries: the fetcher keeps the listing order. */
  lemma {:induction false} ProcessServicesAppend(a: seq<RawService>, b: seq<RawService>,
                                                 project: string, region: string, skip: seq<string>)
    ensures ProcessServices(a + b, project, region, skip)
         == ProcessServices(a, project, region, skip) + ProcessServices(b, project, region, skip)
    decreases |b|
  {
    if |b| == 0 {
      assert a + b == a;
    } else {
      var binit := b[..|b| - 1];
      assert (a + b)[..|a + b| - 1] == a + binit;
      assert (a + b)[|a + b| - 1] == b[|b| - 1];
      ProcessServicesAppend(a, binit, project, region, skip);
    }
  }

  /** No summary written carries a skipped name. */
  lemma ProcessServicesNeverSkipped(services: seq<RawService>, project: string, region: string, skip: seq<string>)
    ensures var out := ProcessServices(services, project, region, skip);
            forall i :: 0 <= i < |out| ==> Name in out[i] && out[i][Name].JStr? && out[i][Name].text !in skip
  {
    var out: seq<map<Field, Json>> := ProcessServices(services, project, region, skip);
    forall i: int | 0 <= i < |out|
      ensures Name in out[i] && out[i][Name].JStr? && out[i][Name].text !in skip
    {
      assert SummaryOfUnskipped(services, project, region, skip, out[i]);
      var j :| 0 <= j < |services| && ServiceName(services[j]) !in skip
               && out[i] == ExtractServiceMetadata(services[j], project, region);
      ExtractName(services[j], project, region);
    }
  }

  /** Every service whose name is not on the skip list has its summary
      written. */
  lemma {:induction false} ProcessServicesKeeps(services: seq<RawService>, project: string, region: string,
                                                skip: seq<string>, j: int)
    requires 0 <= j < |services| && ServiceName(services[j]) !in skip
    ensures ExtractServiceMetadata(services[j], project, region) in ProcessServices(services, project, region, skip)
    decreases |services|
  {
    var init := services[..|services| - 1];
    if j < |services| - 1 {
      assert init[j] == services[j];
      ProcessServicesKeeps(init, project, region, skip, j);
    }
  }

  /** A last service that is not skipped adds its summary at the end. */
  lemma ProcessServicesStep(services: seq<RawService>, project: string, region: string, skip: seq<string>)
    requires |services| > 0 && ServiceName(services[|services| - 1]) !in skip
    ensures ProcessServices(services, project, region, skip)
         == ProcessServices(services[..|services| - 1], project, region, skip)
            + [ExtractServiceMetadata(services[|services| - 1], project, region)]
  {
  }

  /** With nothing to skip, as configured, every service is summarised in
      listing order. */
  lemma {:induction false} ProcessServicesSkipNothing(services: seq<RawService>, project: string, region: string)
    ensures var out := ProcessServices(services, project, region, SkipServices);
            && |out| == |services|
            && forall i :: 0 <= i < |services| ==> out[i] == ExtractServiceMetadata(services[i], project, region)
    decreases |services|
  {
    if |services| > 0 {
      var init := services[..|services| - 1];
      var last := services[|services| - 1];
      ProcessServicesSkipNothing(init, project, region);
      var before := ProcessServices(init, project, region, SkipServices);
      var out := before + [ExtractServiceMetadata(last, project, region)];
      ProcessServicesStep(services, project, region, SkipServices);
      forall i | 0 <= i < |services|
        ensures out[i] == ExtractServiceMetadata(services[i], project, region)
      {
        if i < |init| {
          assert out[i] == before[i];
          assert init[i] == services[i];
        } else {
          assert i == |before|;
          assert out[i] == ExtractServiceMetadata(last, project, region);
        }
      }
    }
  }
}

=== FILE: ordering.dfy ===
/** Python's ordering of strings (code point by code point, a proper prefix
    first) and `sorted(s)` of a set of strings. */
module Ordering {

  /** `a <= b` for Python strings. */
  predicate LexLe(a: string, b: string)
    decreases |a|
  {
    |a| == 0 || (|b| > 0 && (a[0] < b[0] || (a[0] == b[0] && LexLe(a[1..], b[1..]))))
  }

  lemma LexLeTotal(a: string, b: string)
    ensures LexLe(a, b) || LexLe(b, a)
    decreases |a|
  {
    if |a| > 0 && |b| > 0 && a[0] == b[0] {
      LexLeTotal(a[1..], b[1..]);
    }
  }

  lemma LexLeAntisymmetric(a: string, b: string)
    requires LexLe(a, b) && LexLe(b, a)
    ensures a == b
    decreases |a|
  {
    if |a| > 0 && |b| > 0 {
      LexLeAntisymmetric(a[1..], b[1..]);
      assert a == [a[0]] + a[1..] && b == [b[0]] + b[1..];
    }
  }

  lemma LexLeTransitive(a: string, b: string, c: string)
    requires LexLe(a, b) && LexLe(b, c)
    ensures LexLe(a, c)
    decreases |a|
  {
    if |a| > 0 && |b| > 0 && |c| > 0 && a[0] == b[0] && b[0] == c[0] {
      LexLeTransitive(a[1..], b[1..], c[1..]);
    }
  }

  /** `m` is the smallest element of `s`. */
  predicate IsLeast(m: string, s: set<string>) {
    m in s && forall x :: x in s ==> LexLe(m, x)
  }

  lemma LeastExists(s: set<string>)
    requires s != {}
    ensures exists m :: IsLeast(m, s)
    decreases |s|
  {
    var x :| x in s;
    if s != {x} {
      var rest := s - {x};
      LeastExists(rest);
      var m :| IsLeast(m, rest);
      LexLeTotal(x, m);
      if LexLe(x, m) {
        forall y | y in s
          ensures LexLe(x, y)
        {
          if y != x {
            LexLeTransitive(x, m, y);
          } else {
            LexLeTotal(x, x);
          }
        }
        assert IsLeast(x, s);
      } else {
        assert IsLeast(m, s);
      }
    } else {
      LexLeTotal(x, x);
      assert IsLeast(x, s);
    }
  }

  lemma LeastUnique(s: set<string>)
    ensures forall a, b :: IsLeast(a, s) && IsLeast(b, s) ==> a == b
  {
    forall a, b | IsLeast(a, s) && IsLeast(b, s)
      ensures a == b
    {
      LexLeAntisymmetric(a, b);
    }
  }

  /** `min(s)`. */
  function Least(s: set<string>): (m: string)
    requires s != {}
    ensures IsLeast(m, s)
  {
    LeastExists(s);
    LeastUnique(s);
    var m :| IsLeast(m, s);
    m
  }

  /** Every element of `r` is strictly smaller than every later one. */
  predicate StrictlyAscending(r: seq<string>) {
    forall i, j :: 0 <= i < j < |r| ==> LexLe(r[i], r[j]) && r[i] != r[j]
  }

  /** `r` lists the elements of `s` in ascending order, each once. */
  predicate IsSortedEnumeration(r: seq<string>, s: set<string>) {
    && StrictlyAscending(r)
    && (forall x :: x in s ==> x in r)
    && (forall x :: x in r ==> x in s)
  }

  /** Python's `sorted(s)` for a set of strings. */
  function SortedElements(s: set<string>): (r: seq<string>)
    ensures IsSortedEnumeration(r, s)
    ensures |r| == |s|
    decreases |s|
  {
    if s == {} then []
    else
      var m := Least(s);
      var rest := SortedElements(s - {m});
      SortedCons(m, rest, s);
      [m] + rest
  }

  /** The least element followed by the sorted rest is sorted. */
  lemma SortedCons(m: string, rest: seq<string>, s: set<string>)
    requires IsLeast(m, s)
    requires IsSortedEnumeration(rest, s - {m})
    ensures IsSortedEnumeration([m] + rest, s)
  {
    var r := [m] + rest;
    assert forall j :: 0 <= j < |rest| ==> rest[j] in s - {m};
    assert forall j :: 1 <= j < |r| ==> r[j] == rest[j - 1];
  }

  /** A set has only one ascending enumeration, so `SortedElements` is the
      sorted order and not merely some order. */
  lemma {:induction false} SortedEnumerationUnique(a: seq<string>, b: seq<string>, s: set<string>)
    requires IsSortedEnumeration(a, s) && IsSortedEnumeration(b, s)
    ensures a == b
    decreases |a|
  {
    if |a| > 0 && |b| > 0 {
      assert a[0] in b;
      assert b[0] in a;
      var i :| 0 <= i < |b| && b[i] == a[0];
      var j :| 0 <= j < |a| && a[j] == b[0];
      assert LexLe(b[0], a[0]) by {
        if i > 0 {} else { LexLeTotal(b[0], b[0]); }
      }
      assert LexLe(a[0], b[0]) by {
        if j > 0 {} else { LexLeTotal(a[0], a[0]); }
      }
      LexLeAntisymmetric(a[0], b[0]);
      var s' := s - {a[0]};
      forall x ensures x in s' <==> x in a[1..] {
        if x in a[1..] {
          var k :| 0 <= k < |a[1..]| && a[1..][k] == x;
          assert a[k + 1] == x;
        }
      }
      forall x ensures x in s' <==> x in b[1..] {
        if x in b[1..] {
          var k :| 0 <= k < |b[1..]| && b[1..][k] == x;
          assert b[k + 1] == x;
        }
      }
      SortedEnumerationUnique(a[1..], b[1..], s');
      assert a == [a[0]] + a[1..] && b == [b[0]] + b[1..];
    } else {
      EnumerationSize(a, s);
      EnumerationSize(b, s);
    }
  }

  /** An ascending enumeration of `s` has exactly `|s|` entries. */
  lemma {:induction false} EnumerationSize(r: seq<string>, s: set<string>)
    requires IsSortedEnumeration(r, s)
    ensures |r| == |s|
    decreases |r|
  {
    if |r| == 0 {
      assert s == {};
    } else {
      var s' := s - {r[0]};
      forall x ensures x in s' <==> x in r[1..] {
        if x in r[1..] {
          var k :| 0 <= k < |r[1..]| && r[1..][k] == x;
          assert r[k + 1] == x;
        }
        if x in s' {
          assert x in r;
          var k :| 0 <= k < |r| && r[k] == x;
          assert r[1..][k - 1] == x;
        }
      }
      EnumerationSize(r[1..], s');
    }
  }
}

=== FILE: pr_metadata.dfy ===
/** The pull-request metadata fetcher: pull requests updated inside a
    look-back window are shaped into CSV rows of name, branch, status, merge
    time and first comment. Times count microseconds, the resolution of
    Python's `datetime`; reading ISO-8601 text and printing a wall-clock time
    are left to function parameters. The reader gives what `fromisoformat`
    returns, or the message of the `ValueError` it raises. */
module PrMetadata {
  import opened Wrappers
  import Text

  const DefaultLookbackHours := 24
  const MicrosecondsPerHour := 3600 * 1000000

  /** One entry of `gh pr list --json ...`; `None` is a key the entry does
      not have. */
  datatype RawPr = RawPr(
    number: Option<int>,
    title: Option<string>,
    headRefName: Option<string>,
    state: Option<string>,
    mergedAt: Option<string>,
    updatedAt: Option<string>,
    url: Option<string>)

  // ---------------------------------------------------------------------------
  // Time stamps
  // ---------------------------------------------------------------------------

  /** `s.replace("Z", "+00:00")`: every `Z` becomes an explicit UTC offset
      before the text is handed to the ISO-8601 reader. */
  function ZuluToOffset(s: string): (r: string)
    ensures 'Z' !in r
    ensures 'Z' !in s ==> r == s
  {
    if |s| == 0 then ""
    else ZuluChar(s[0]) + ZuluToOffset(s[1..])
  }

  function ZuluChar(c: char): (r: string)
    ensures 'Z' !in r
    ensures c != 'Z' ==> r == [c]
  {
    if c == 'Z' then "+00:00" else [c]
  }

  lemma {:induction false} ZuluToOffsetAppend(a: string, b: string)
    ensures ZuluToOffset(a + b) == ZuluToOffset(a) + ZuluToOffset(b)
    decreases |a|
  {
    if |a| == 0 {
      assert a + b == b;
    } else {
      var t := a[1..];
      assert (a + b)[0] == a[0];
      assert (a + b)[1..] == t + b;
      ZuluToOffsetAppend(t, b);
      var head := ZuluChar(a[0]);
      assert ZuluToOffset(a + b) == head + ZuluToOffset(t + b);
      assert ZuluToOffset(a) == head + ZuluToOffset(t);
      Text.ConcatAssoc(head, ZuluToOffset(t), ZuluToOffset(b));
    }
  }

  /** A UTC time stamp written with a trailing `Z`, as GitHub writes them,
      gets the offset `+00:00` in its place and is otherwise unchanged. */
  lemma ZuluSuffix(s: string)
    requires 'Z' !in s
    ensures ZuluToOffset(s + "Z") == s + "+00:00"
  {
    ZuluToOffsetAppend(s, "Z");
    assert ZuluToOffset(s) == s;
    var z := "Z";
    assert z[0] == 'Z' && z[1..] == "";
    assert ZuluToOffset(z) == ZuluChar('Z') + ZuluToOffset(z[1..]);
  }

  /** What `datetime.fromisoformat` reads from a time stamp: the wall-clock
      time on the text's own clock and the UTC offset when the text carries
      one (`None` is a naive datetime), both in microseconds. */
  datatype DateTime = DateTime(wall: int, offset: Option<int>)

  /** The instant an aware datetime denotes, in microseconds since the epoch
      (UTC). */
  function Instant(d: DateTime): int
    requires d.offset.Some?
  {
    d.wall - d.offset.value
  }

  /** The oldest update instant still inside the look-back window. */
  function Cutoff(now: int, lookbackHours: int): (cutoff: int)
    ensures lookbackHours >= 0 ==> cutoff <= now
    ensures now - cutoff == lookbackHours * MicrosecondsPerHour
  {
    now - lookbackHours * MicrosecondsPerHour
  }

  // ---------------------------------------------------------------------------
  // The update-time filter of `fetch_pr_list`
  // ---------------------------------------------------------------------------

  /** The pull request carries an update time, and that time reads as an
      aware datetime at or after the cutoff. */
  predicate UpdatedSince(pr: RawPr, cutoff: int, parseIso: string -> Result<DateTime>) {
    var updated := pr.updatedAt.GetOr("");
    && updated != ""
    && parseIso(ZuluToOffset(updated)).Ok?
    && parseIso(ZuluToOffset(updated)).value.offset.Some?
    && Instant(parseIso(ZuluToOffset(updated)).value) >= cutoff
  }

  /** An update time is given but cannot be compared with the cutoff:
      `fromisoformat` raises `ValueError`, or the time reads as a naive
      datetime and comparing it with the aware cutoff raises `TypeError`.
      Either way the whole listing fails. */
  predicate Unreadable(pr: RawPr, parseIso: string -> Result<DateTime>) {
    var updated := pr.updatedAt.GetOr("");
    && updated != ""
    && (parseIso(ZuluToOffset(updated)).Err? || parseIso(ZuluToOffset(updated)).value.offset.None?)
  }

  /** The message `TypeError` carries when a naive datetime is compared with
      an aware one. */
  const NaiveComparisonError := "can't compare offset-naive and offset-aware datetimes"

  /** The message of the error an unreadable update time raises: the
      `ValueError` of `fromisoformat`, whose message the reader reports, or
      the `TypeError` of the comparison. */
  function ReadError(pr: RawPr, parseIso: string -> Result<DateTime>): (message: string)
    requires Unreadable(pr, parseIso)
  {
    var read := parseIso(ZuluToOffset(pr.updatedAt.value));
    if read.Err? then read.message else NaiveComparisonError
  }

  /** The position of the first unreadable update time, or the length of
      the listing when every update time reads. */
  function FirstUnreadable(prs: seq<RawPr>, parseIso: string -> Result<DateTime>): (k: nat)
    ensures k <= |prs|
    ensures forall j :: 0 <= j < k ==> !Unreadable(prs[j], parseIso)
    ensures k < |prs| ==> Unreadable(prs[k], parseIso)
  {
    if |prs| == 0 then 0
    else if Unreadable(prs[0], parseIso) then 0
    else
      assert forall j :: 1 <= j < |prs| ==> prs[j] == prs[1..][j - 1];
      1 + FirstUnreadable(prs[1..], parseIso)
  }

  /** The pull requests updated at or after `cutoff`, in listing order. The
      first unreadable update time aborts the listing with its error. */
  function FilterByUpdated(prs: seq<RawPr>, cutoff: int, parseIso: string -> Result<DateTime>)
    : (r: Result<seq<RawPr>>)
    ensures r.Ok? <==> forall i :: 0 <= i < |prs| ==> !Unreadable(prs[i], parseIso)
    ensures r.Err? ==> FirstUnreadable(prs, parseIso) < |prs|
                       && r.message == ReadError(prs[FirstUnreadable(prs, parseIso)], parseIso)
    ensures r.Ok? ==> forall pr :: pr in r.value <==> pr in prs && UpdatedSince(pr, cutoff, parseIso)
    ensures r.Ok? ==> |r.value| <= |prs|
  {
    if |prs| == 0 then Ok([])
    else if Unreadable(prs[0], parseIso) then Err(ReadError(prs[0], parseIso))
    else
      var rest := FilterByUpdated(prs[1..], cutoff, parseIso);
      assert forall i :: 1 <= i < |prs| ==> prs[i] == prs[1..][i - 1];
      if rest.Err? then rest
      else if UpdatedSince(prs[0], cutoff, parseIso) then Ok([prs[0]] + rest.value)
      else Ok(rest.value)
  }

  /** Filtering a listing in two parts and concatenating gives the same
      result: the filter keeps the listing order and looks at one pull
      request at a time. */
  lemma {:induction false} FilterAppend(a: seq<RawPr>, b: seq<RawPr>, cutoff: int, parseIso: string -> Result<DateTime>)
    requires FilterByUpdated(a, cutoff, parseIso).Ok? && FilterByUpdated(b, cutoff, parseIso).Ok?
    ensures FilterByUpdated(a + b, cutoff, parseIso)
         == Ok(FilterByUpdated(a, cutoff, parseIso).value + FilterByUpdated(b, cutoff, parseIso).value)
    decreases |a|
  {
    if |a| == 0 {
      assert a + b == b;
      var y := FilterByUpdated(b, cutoff, parseIso).value;
      assert [] + y == y;
    } else {
      assert (a + b)[0] == a[0];
      assert (a + b)[1..] == a[1..] + b;
      FilterAppend(a[1..], b, cutoff, parseIso);
      var x := FilterByUpdated(a[1..], cutoff, parseIso).value;
      var y := FilterByUpdated(b, cutoff, parseIso).value;
      assert [a[0]] + (x + y) == [a[0]] + x + y;
    }
  }

  /** An update time the reader rejects fails the listing with the reader's
      own message, for instance `month must be in 1..12` for a thirteenth
      month, and nothing is kept. */
  lemma RejectedUpdateTimeReported(pr: RawPr, rest: seq<RawPr>, cutoff: int,
                                   parseIso: string -> Result<DateTime>, message: string)
    requires pr.updatedAt.Some? && pr.updatedAt.value != ""
    requires parseIso(ZuluToOffset(pr.updatedAt.value)) == Err(message)
    ensures FilterByUpdated([pr] + rest, cutoff, parseIso) == Err(message)
  {
  }

  /** A pull request without an update time is never kept, whatever the
      cutoff. */
  lemma NoUpdateTimeDropped(pr: RawPr, cutoff: int, parseIso: string -> Result<DateTime>)
    requires pr.updatedAt.GetOr("") == ""
    ensures FilterByUpdated([pr], cutoff, parseIso) == Ok([])
  {
    assert [pr][1..] == [];
  }

  // ---------------------------------------------------------------------------
  // `process_pr_metadata`
  // ---------------------------------------------------------------------------

  datatype Status = Merged | Open | Closed

  function StatusText(s: Status): string {
    match s
    case Merged => "merged"
    case Open => "open"
    case Closed => "closed"
  }

  /** The status from the lower-cased state: merged and open are recognised,
      anything else, the empty state included, is closed. */
  function StatusOf(state: string): (s: Status)
    ensures s == Merged <==> Text.Lower(state) == "merged"
    ensures s == Open <==> Text.Lower(state) == "open"
    ensures s == Closed <==> Text.Lower(state) != "merged" && Text.Lower(state) != "open"
  {
    var lowered := Text.Lower(state);
    if lowered == "merged" then Merged
    else if lowered == "open" then Open
    else Closed
  }

  /** The states `gh` reports map to the three statuses. */
  lemma GhStates()
    ensures StatusOf("MERGED") == Merged
    ensures StatusOf("OPEN") == Open
    ensures StatusOf("CLOSED") == Closed
    ensures StatusOf("") == Closed
  {
    LowerOf("MERGED", "merged");
    LowerOf("OPEN", "open");
    LowerOf("CLOSED", "closed");
    assert "closed"[0] != "merged"[0];
  }

  lemma LowerOf(upper: string, lower: string)
    requires |upper| == |lower|
    requires forall i :: 0 <= i < |upper| ==> Text.LowerChar(upper[i]) == lower[i]
    ensures Text.Lower(upper) == lower
  {
  }

  /** The merge time column: empty for an unmerged pull request, the raw text
      when reading the merge time raises, whatever the error, and otherwise the wall-clock time on
      the text's own clock followed by the literal ` UTC`. `formatWall` is
      `strftime("%Y-%m-%d %H:%M:%S")`; the offset is not applied. */
  function MergeTimestamp(mergedAt: string, parseIso: string -> Result<DateTime>, formatWall: int -> string)
    : (r: string)
    ensures r == "" <==> mergedAt == ""
    ensures mergedAt != "" && parseIso(ZuluToOffset(mergedAt)).Err? ==> r == mergedAt
    ensures mergedAt != "" && parseIso(ZuluToOffset(mergedAt)).Ok?
            ==> r == formatWall(parseIso(ZuluToOffset(mergedAt)).value.wall) + " UTC"
  {
    if mergedAt == "" then ""
    else
      match parseIso(ZuluToOffset(mergedAt))
      case Err(_) => mergedAt
      case Ok(d) => formatWall(d.wall) + " UTC"
  }

  /** A merge time as GitHub writes it, ending in `Z`, is printed as its UTC
      wall-clock time: the ` UTC` label is then true. */
  lemma ZuluMergeTime(s: string, parseIso: string -> Result<DateTime>, formatWall: int -> string, t: int)
    requires 'Z' !in s
    requires parseIso(s + "+00:00") == Ok(DateTime(t, Some(0)))
    ensures MergeTimestamp(s + "Z", parseIso, formatWall) == formatWall(Instant(DateTime(t, Some(0)))) + " UTC"
  {
    ZuluSuffix(s);
  }

  /** Any other offset is not converted: two merge times with the same clock
      reading print alike, whatever instants they denote. */
  lemma MergeTimeIgnoresOffset(a: string, b: string, parseIso: string -> Result<DateTime>,
                               formatWall: int -> string, wall: int, offsetA: int, offsetB: int)
    requires a != "" && parseIso(ZuluToOffset(a)) == Ok(DateTime(wall, Some(offsetA)))
    requires b != "" && parseIso(ZuluToOffset(b)) == Ok(DateTime(wall, Some(offsetB)))
    ensures MergeTimestamp(a, parseIso, formatWall) == MergeTimestamp(b, parseIso, formatWall)
    ensures offsetA != offsetB ==>
              Instant(DateTime(wall, Some(offsetA))) != Instant(DateTime(wall, Some(offsetB)))
  {
  }

  /** The processed record; `prNumber` and `url` are carried but not written. */
  datatype PrRecord = PrRecord(
    prName: string,
    branchName: string,
    status: string,
    mergeTimestamp: string,
    firstComment: string,
    prNumber: Option<int>,
    url: string)

  /** `process_pr_metadata`; `details` is what fetching the body gave for
      this pull request, `None` when the fetch failed. */
  function ProcessPr(pr: RawPr, details: Option<string>, parseIso: string -> Result<DateTime>, formatWall: int -> string)
    : (m: PrRecord)
    ensures m.prName == pr.title.GetOr("") && m.branchName == pr.headRefName.GetOr("")
    ensures m.status in {"merged", "open", "closed"}
    ensures m.status == "merged" <==> Text.Lower(pr.state.GetOr("")) == "merged"
    ensures m.status == "open" <==> Text.Lower(pr.state.GetOr("")) == "open"
    ensures pr.mergedAt.GetOr("") == "" ==> m.mergeTimestamp == ""
    ensures m.mergeTimestamp == MergeTimestamp(pr.mergedAt.GetOr(""), parseIso, formatWall)
    ensures details.None? ==> m.firstComment == ""
    ensures details.Some? ==> m.firstComment == details.value
    ensures m.prNumber == pr.number && m.url == pr.url.GetOr("")
  {
    PrRecord(
      pr.title.GetOr(""),
      pr.headRefName.GetOr(""),
      StatusText(StatusOf(pr.state.GetOr(""))),
      MergeTimestamp(pr.mergedAt.GetOr(""), parseIso, formatWall),
      details.GetOr(""),
      pr.number,
      pr.url.GetOr(""))
  }

  // ---------------------------------------------------------------------------
  // `save_to_csv`
  // ---------------------------------------------------------------------------

  /** The keys of a processed record. */
  datatype Column = PrName | BranchName | StatusColumn | MergeTime | FirstComment | PrNumber | Url

  function ColumnName(c: Column): string {
    match c
    case PrName => "pr_name"
    case BranchName => "branch_name"
    case StatusColumn => "status"
    case MergeTime => "merge_timestamp"
    case FirstComment => "first_comment"
    case PrNumber => "pr_number"
    case Url => "url"
  }

  /** The columns the CSV writer is given; other keys are ignored. */
  const CsvColumns: seq<Column> := [PrName, BranchName, StatusColumn, MergeTime, FirstComment]

  /** The text the writer puts in a cell; `None` is an empty cell. */
  function Cell(m: PrRecord, c: Column): string {
    match c
    case PrName => m.prName
    case BranchName => m.branchName
    case StatusColumn => m.status
    case MergeTime => m.mergeTimestamp
    case FirstComment => m.firstComment
    case PrNumber => if m.prNumber.Some? then Text.IntToDecimal(m.prNumber.value) else ""
    case Url => m.url
  }

  /** One CSV row: the record's values for the given columns, in column order. */
  function CsvRow(m: PrRecord, columns: seq<Column>): (row: seq<string>)
    ensures |row| == |columns|
    ensures forall i :: 0 <= i < |columns| ==> row[i] == Cell(m, columns[i])
  {
    seq(|columns|, i requires 0 <= i < |columns| => Cell(m, columns[i]))
  }

  /** The CSV table as written: the header, then one row per record. */
  function CsvTable(records: seq<PrRecord>): (table: seq<seq<string>>)
    ensures |table| == |records| + 1
    ensures table[0] == ["pr_name", "branch_name", "status", "merge_timestamp", "first_comment"]
    ensures forall i :: 0 <= i < |records| ==>
              table[i + 1] == [records[i].prName, records[i].branchName, records[i].status,
                               records[i].mergeTimestamp, records[i].firstComment]
  {
    var header := seq(|CsvColumns|, i requires 0 <= i < |CsvColumns| => ColumnName(CsvColumns[i]));
    [header] + seq(|records|, i requires 0 <= i < |records| => CsvRow(records[i], CsvColumns))
  }

  /** The number and URL never reach the file: records differing only there
      are written identically. */
  lemma CsvIgnoresExtraKeys(m: PrRecord, number: Option<int>, url: string)
    ensures CsvRow(m.(prNumber := number, url := url), CsvColumns) == CsvRow(m, CsvColumns)
    ensures PrNumber !in CsvColumns && Url !in CsvColumns
  {
  }

  // ---------------------------------------------------------------------------
  // The fetcher end to end
  // ---------------------------------------------------------------------------

  /** The CSV row of one pull request. */
  function PrRow(pr: RawPr, details: Option<string>, parseIso: string -> Result<DateTime>, formatWall: int -> string)
    : (row: seq<string>)
    ensures |row| == 5
    ensures row[0] == pr.title.GetOr("") && row[1] == pr.headRefName.GetOr("")
    ensures row[2] == StatusText(StatusOf(pr.state.GetOr("")))
    ensures row[3] == MergeTimestamp(pr.mergedAt.GetOr(""), parseIso, formatWall)
    ensures row[4] == details.GetOr("")
  {
    assert CsvColumns[0] == PrName && CsvColumns[1] == BranchName && CsvColumns[2] == StatusColumn;
    assert CsvColumns[3] == MergeTime && CsvColumns[4] == FirstComment;
    CsvRow(ProcessPr(pr, details, parseIso, formatWall), CsvColumns)
  }

  /** The CSV rows of the kept pull requests: title, branch, status, merge
      time and fetched body, in listing order. */
  function RecordRows(kept: seq<RawPr>, parseIso: string -> Result<DateTime>, formatWall: int -> string,
                      bodyOf: Option<int> -> Option<string>): (rows: seq<seq<string>>)
    ensures |rows| == |kept|
    ensures forall i :: 0 <= i < |kept| ==>
              && |rows[i]| == 5
              && rows[i][0] == kept[i].title.GetOr("")
              && rows[i][1] == kept[i].headRefName.GetOr("")
              && rows[i][2] == StatusText(StatusOf(kept[i].state.GetOr("")))
              && rows[i][3] == MergeTimestamp(kept[i].mergedAt.GetOr(""), parseIso, formatWall)
              && rows[i][4] == bodyOf(kept[i].number).GetOr("")
  {
    var rows := seq(|kept|, i requires 0 <= i < |kept| => PrRow(kept[i], bodyOf(kept[i].number), parseIso, formatWall));
    assert forall i :: 0 <= i < |kept| ==> rows[i] == PrRow(kept[i], bodyOf(kept[i].number), parseIso, formatWall);
    rows
  }

  /** The fetcher's run: filter the listing by the window, process each
      pull request with its fetched body, and write a table unless nothing
      is left. `bodyOf` is the body fetch by pull request number. */
  function Report(prs: seq<RawPr>, now: int, lookbackHours: int,
                  parseIso: string -> Result<DateTime>, formatWall: int -> string,
                  bodyOf: Option<int> -> Option<string>)
    : (r: Result<Option<seq<seq<string>>>>)
    ensures r.Err? <==> FilterByUpdated(prs, Cutoff(now, lookbackHours), parseIso).Err?
    ensures r.Ok? ==> (r.value.None? <==> FilterByUpdated(prs, Cutoff(now, lookbackHours), parseIso).value == [])
    ensures r.Ok? && r.value.Some? ==>
              |r.value.value| == |FilterByUpdated(prs, Cutoff(now, lookbackHours), parseIso).value| + 1
    ensures r.Ok? && r.value.Some? ==>
              r.value.value[0] == ["pr_name", "branch_name", "status", "merge_timestamp", "first_comment"]
    ensures r.Ok? && r.value.Some? ==>
              r.value.value[1..] == RecordRows(FilterByUpdated(prs, Cutoff(now, lookbackHours), parseIso).value,
                                               parseIso, formatWall, bodyOf)
  {
    match FilterByUpdated(prs, Cutoff(now, lookbackHours), parseIso)
    case Err(e) => Err(e)
    case Ok(kept) =>
      if |kept| == 0 then Ok(None)
      else
        var records := seq(|kept|, i requires 0 <= i < |kept| =>
                             ProcessPr(kept[i], bodyOf(kept[i].number), parseIso, formatWall));
        var table := CsvTable(records);
        assert table[1..] == RecordRows(kept, parseIso, formatWall, bodyOf);
        Ok(Some(table))
  }
}

=== FILE: query_builder.dfy ===
/** `QueryBuilder` of the table comparison script: clause normalisation, the
    column list, and the text of the row-count, `EXCEPT DISTINCT` and
    `UNION ALL` queries. */
module QueryBuilder {
  import opened Wrappers
  import opened Text
  import Ordering

  // ---------------------------------------------------------------------------
  // Clause normalisation
  // ---------------------------------------------------------------------------

  /** Shared shape of `normalize_where_clause` and `normalize_order_by_clause`:
      an absent or empty clause is dropped; otherwise the stripped text is kept,
      prefixed with `keyword + " "` unless its lower-case form already starts
      with `keyword` (a plain prefix test, not a whole-word one). */
  function NormalizeClause(keyword: string, clause: Option<string>): (r: Option<string>)
    ensures r.None? <==> !Truthy(clause)
    ensures r.Some? ==>
              (r.value == Strip(clause.value) <==> StartsWith(Lower(Strip(clause.value)), keyword))
    ensures r.Some? && r.value != Strip(clause.value) ==>
              r.value == keyword + " " + Strip(clause.value)
  {
    if !Truthy(clause) then None
    else
      var s := Strip(clause.value);
      if StartsWith(Lower(s), keyword) then Some(s) else Some(keyword + " " + s)
  }

  function NormalizeWhereClause(clause: Option<string>): Option<string> {
    NormalizeClause("where", clause)
  }

  function NormalizeOrderByClause(clause: Option<string>): Option<string> {
    NormalizeClause("order by", clause)
  }

  /** A keyword the normaliser can recognise after its own prefixing: lower-case,
      starting with a non-space character. */
  predicate ClauseKeyword(keyword: string) {
    |keyword| > 0 && IsLower(keyword) && !IsSpace(keyword[0])
  }

  /** Whenever the clause has visible text, the normalised clause begins with
      the keyword (ignoring case). */
  lemma NormalizedStartsWithKeyword(keyword: string, clause: Option<string>)
    requires ClauseKeyword(keyword)
    requires Truthy(clause)
    ensures StartsWith(Lower(NormalizeClause(keyword, clause).value), keyword)
  {
    var s := Strip(clause.value);
    if !StartsWith(Lower(s), keyword) {
      KeywordSpacePrefixLowered(keyword, s);
    }
  }

  lemma KeywordSpacePrefixLowered(keyword: string, s: string)
    requires IsLower(keyword)
    ensures StartsWith(Lower(keyword + " " + s), keyword)
  {
    KeywordPrefixLowered(keyword, " " + s);
    assert keyword + " " + s == keyword + (" " + s);
  }

  /** Prefixing the keyword makes the lower-cased text start with it. */
  lemma KeywordPrefixLowered(keyword: string, rest: string)
    requires IsLower(keyword)
    ensures StartsWith(Lower(keyword + rest), keyword)
  {
    var t := Lower(keyword + rest);
    assert forall i :: 0 <= i < |keyword| ==> t[i] == keyword[i];
    assert t[..|keyword|] == keyword;
  }

  /** A trimmed clause that already opens with the keyword is left alone. */
  lemma NormalizeKeepsKeyworded(keyword: string, text: string)
    requires text != "" && Trimmed(text)
    requires StartsWith(Lower(text), keyword)
    ensures NormalizeClause(keyword, Some(text)) == Some(text)
  {
    StripTrimmed(text);
  }

  /** A clause with visible text normalises to non-empty text with no
      whitespace at either end. */
  lemma NormalizedTrimmed(keyword: string, clause: Option<string>)
    requires ClauseKeyword(keyword)
    requires Truthy(clause) && !AllSpace(clause.value)
    ensures var once := NormalizeClause(keyword, clause).value;
            once != "" && Trimmed(once)
  {
    StripVisible(clause.value);
    PrefixedTrimmed(keyword, Strip(clause.value));
  }

  /** Normalising twice is the same as normalising once, provided the clause
      has some non-whitespace text. */
  lemma NormalizeIdempotent(keyword: string, clause: Option<string>)
    requires ClauseKeyword(keyword)
    requires Truthy(clause) && !AllSpace(clause.value)
    ensures NormalizeClause(keyword, NormalizeClause(keyword, clause)) == NormalizeClause(keyword, clause)
  {
    var once := NormalizeClause(keyword, clause).value;
    NormalizedTrimmed(keyword, clause);
    NormalizedStartsWithKeyword(keyword, clause);
    NormalizeKeepsKeyworded(keyword, once);
  }

  /** The exception to idempotence: a whitespace-only clause normalises to the
      bare keyword followed by a space, and normalising that strips the space. */
  lemma WhitespaceClauseNotFixpoint(keyword: string, blank: string)
    requires ClauseKeyword(keyword) && Trimmed(keyword)
    requires |blank| > 0 && AllSpace(blank)
    ensures NormalizeClause(keyword, Some(blank)) == Some(keyword + " ")
    ensures NormalizeClause(keyword, Some(keyword + " ")) == Some(keyword)
  {
    BlankClauseBareKeyword(keyword, blank);
    KeywordSpaceLosesSpace(keyword);
  }

  lemma BlankClauseBareKeyword(keyword: string, blank: string)
    requires |keyword| > 0
    requires |blank| > 0 && AllSpace(blank)
    ensures NormalizeClause(keyword, Some(blank)) == Some(keyword + " ")
  {
    assert Strip(blank) == "";
    assert !StartsWith(Lower(""), keyword);
    assert keyword + " " + "" == keyword + " ";
  }

  lemma KeywordSpaceLosesSpace(keyword: string)
    requires IsLower(keyword) && Trimmed(keyword)
    ensures NormalizeClause(keyword, Some(keyword + " ")) == Some(keyword)
  {
    StripTrailingSpace(keyword);
    LowerFixesLower(keyword);
    StartsWithSelf(keyword);
  }

  /** The keyword test is not bounded by a word: text whose first word merely
      begins with the keyword (`wherever`, `whereabouts`) is taken to carry the
      keyword already and gets no prefix. */
  lemma KeywordTestNotWordBounded(keyword: string, rest: string)
    requires ClauseKeyword(keyword)
    requires |rest| > 0 && IsWordChar(rest[0]) && !IsSpace(rest[|rest| - 1])
    ensures NormalizeClause(keyword, Some(keyword + rest)) == Some(keyword + rest)
  {
    var text := keyword + rest;
    assert text[0] == keyword[0] && text[|text| - 1] == rest[|rest| - 1];
    KeywordPrefixLowered(keyword, rest);
    NormalizeKeepsKeyworded(keyword, text);
  }

  /** The concrete case: `where` followed by `ver`. */
  lemma WherePrefixNotWordBounded()
    ensures NormalizeWhereClause(Some("wherever")) == Some("wherever")
  {
    assert "where" + "ver" == "wherever";
    KeywordTestNotWordBounded("where", "ver");
  }

  /** The normaliser as evidently intended: a whitespace-only clause is dropped
      like an empty one, and the keyword test requires the keyword to end at a
      word boundary. */
  function NormalizeClauseBounded(keyword: string, clause: Option<string>): (r: Option<string>)
    ensures r.None? <==> !Truthy(clause) || AllSpace(clause.value)
    ensures r.Some? ==>
              r.value == Strip(clause.value) || r.value == keyword + " " + Strip(clause.value)
  {
    if !Truthy(clause) then None
    else
      var s := Strip(clause.value);
      if s == "" then None
      else if StartsWithKeyword(Lower(s), keyword) then Some(s)
      else Some(keyword + " " + s)
  }

  predicate IsWordChar(c: char) {
    ('a' <= c <= 'z') || ('A' <= c <= 'Z') || ('0' <= c <= '9') || c == '_'
  }

  /** `text` starts with the whole word `keyword`. */
  predicate StartsWithKeyword(text: string, keyword: string) {
    StartsWith(text, keyword) && (|text| == |keyword| || !IsWordChar(text[|keyword|]))
  }

  /** Lower-casing the keyword, a space and any text keeps the keyword as a
      whole word at the front. */
  lemma KeywordSpaceLowered(keyword: string, s: string)
    requires IsLower(keyword)
    ensures StartsWithKeyword(Lower(keyword + " " + s), keyword)
  {
    var t := Lower(keyword + " " + s);
    assert forall i :: 0 <= i < |keyword| ==> t[i] == keyword[i];
    assert t[..|keyword|] == keyword;
    assert t[|keyword|] == ' ';
  }

  /** Text after the intended normaliser opens with the whole keyword. */
  lemma BoundedStartsWithKeyword(keyword: string, clause: Option<string>)
    requires ClauseKeyword(keyword)
    requires NormalizeClauseBounded(keyword, clause).Some?
    ensures StartsWithKeyword(Lower(NormalizeClauseBounded(keyword, clause).value), keyword)
  {
    KeywordSpaceLowered(keyword, Strip(clause.value));
  }

  /** Text after the intended normaliser is non-empty and trimmed. */
  lemma BoundedTrimmed(keyword: string, clause: Option<string>)
    requires ClauseKeyword(keyword)
    requires NormalizeClauseBounded(keyword, clause).Some?
    ensures var once := NormalizeClauseBounded(keyword, clause).value;
            once != "" && Trimmed(once)
  {
    StripVisible(clause.value);
    PrefixedTrimmed(keyword, Strip(clause.value));
  }

  /** Trimmed text that already opens with the whole keyword is left alone. */
  lemma BoundedKeepsKeyworded(keyword: string, text: string)
    requires text != "" && Trimmed(text)
    requires StartsWithKeyword(Lower(text), keyword)
    ensures NormalizeClauseBounded(keyword, Some(text)) == Some(text)
  {
    StripTrimmed(text);
  }

  /** The intended normaliser is idempotent on every input, whitespace-only
      clauses included. */
  lemma BoundedIdempotent(keyword: string, clause: Option<string>)
    requires ClauseKeyword(keyword)
    ensures NormalizeClauseBounded(keyword, NormalizeClauseBounded(keyword, clause))
            == NormalizeClauseBounded(keyword, clause)
  {
    var r := NormalizeClauseBounded(keyword, clause);
    if r.Some? {
      BoundedTrimmed(keyword, clause);
      BoundedStartsWithKeyword(keyword, clause);
      BoundedKeepsKeyworded(keyword, r.value);
    }
  }

  /** The intended normaliser does prefix the keyword to text whose first word
      merely begins with it. */
  lemma BoundedPrefixesLongerWord(keyword: string, rest: string)
    requires ClauseKeyword(keyword)
    requires |rest| > 0 && IsWordChar(rest[0]) && !IsSpace(rest[|rest| - 1])
    ensures NormalizeClauseBounded(keyword, Some(keyword + rest)) == Some(keyword + " " + (keyword + rest))
  {
    TrimmedConcat(keyword, rest);
    KeywordBeforeWordChar(keyword, rest);
    BoundedPrefixesTrimmed(keyword, keyword + rest);
  }

  /** Trimmed text that does not open with the whole keyword gets it prefixed. */
  lemma BoundedPrefixesTrimmed(keyword: string, text: string)
    requires text != "" && Trimmed(text)
    requires !StartsWithKeyword(Lower(text), keyword)
    ensures NormalizeClauseBounded(keyword, Some(text)) == Some(keyword + " " + text)
  {
    StripTrimmed(text);
  }

  /** A word character right after the keyword means the keyword is not a
      whole word there. */
  lemma KeywordBeforeWordChar(keyword: string, rest: string)
    requires |rest| > 0 && IsWordChar(rest[0])
    ensures !StartsWithKeyword(Lower(keyword + rest), keyword)
  {
    var text := keyword + rest;
    assert Lower(text)[|keyword|] == LowerChar(text[|keyword|]);
    assert text[|keyword|] == rest[0];
    assert IsWordChar(LowerChar(rest[0]));
  }

  // ---------------------------------------------------------------------------
  // Column list
  // ---------------------------------------------------------------------------

  /** `build_column_list`: explicit columns win; otherwise the common columns,
      sorted and joined with ", "; otherwise `*`. */
  function BuildColumnList(columns: Option<string>, commonColumns: Option<set<string>>): (r: string)
    ensures Truthy(columns) ==> r == columns.value
    ensures !Truthy(columns) && commonColumns.Some? && commonColumns.value != {} ==>
              exists names :: Ordering.IsSortedEnumeration(names, commonColumns.value) && r == Join(names, ", ")
    ensures !Truthy(columns) && (commonColumns.None? || commonColumns.value == {}) ==> r == "*"
  {
    if Truthy(columns) then columns.value
    else if commonColumns.Some? && commonColumns.value != {} then
      Join(Ordering.SortedElements(commonColumns.value), ", ")
    else "*"
  }

  // ---------------------------------------------------------------------------
  // Query text
  // ---------------------------------------------------------------------------

  /** The text appended for an optional where clause: a space and the clause. */
  function WherePart(whereClause: Option<string>): string {
    if Truthy(whereClause) then " " + whereClause.value else ""
  }

  const CountPrefix := "SELECT COUNT(*) as count FROM "

  /** `build_row_count_query`. */
  function BuildRowCountQuery(table: string, whereClause: Option<string>): (r: string)
    ensures StartsWith(r, CountPrefix + table)
    ensures |r| == |CountPrefix| + |table| + |WherePart(whereClause)|
    ensures Truthy(whereClause) ==> EndsWith(r, " " + whereClause.value)
    ensures !Truthy(whereClause) ==> r == CountPrefix + table
  {
    CountPrefix + table + WherePart(whereClause)
  }

  /** The arguments of `build_except_distinct_query`. */
  datatype ExceptArgs = ExceptArgs(
    table1: string,
    table2: string,
    columns: string,
    whereClause: Option<string>,
    orderByClause: Option<string>,
    limit: Option<int>,
    addSourceColumn: Option<string>)

  /** The two `SELECT` arms around `EXCEPT DISTINCT`: rows of `table1` that are
      not in `table2`, both arms with the same columns and the same filter. */
  function ExceptArms(q: ExceptArgs): (r: string)
    ensures |r| > 0 && r[0] == 'S'
  {
    SelectArm(q, q.table1) + "\nEXCEPT DISTINCT\n" + SelectArm(q, q.table2)
  }

  /** One arm: the chosen columns of `table` under the shared filter. */
  function SelectArm(q: ExceptArgs, table: string): (r: string)
    ensures |r| > 0 && r[0] == 'S'
  {
    "SELECT " + q.columns + " FROM " + table + WherePart(q.whereClause)
  }

  /** Read line by line, the `EXCEPT DISTINCT` text is the `table1` arm, the
      operator, then the `table2` arm, both arms with the same columns and
      filter (for names and clauses on one line each). */
  lemma ExceptArmsLines(q: ExceptArgs)
    requires '\n' !in q.columns && '\n' !in q.table1 && '\n' !in q.table2
    requires Truthy(q.whereClause) ==> '\n' !in q.whereClause.value
    ensures Split(ExceptArms(q), '\n') == [SelectArm(q, q.table1), "EXCEPT DISTINCT", SelectArm(q, q.table2)]
  {
    var first := SelectArm(q, q.table1);
    var second := SelectArm(q, q.table2);
    var op := "EXCEPT DISTINCT";
    assert '\n' !in first && '\n' !in second by {
      OneLineArm(q, q.table1);
      OneLineArm(q, q.table2);
    }
    assert ExceptArms(q) == first + ['\n'] + (op + ['\n'] + second) by {
      assert "\nEXCEPT DISTINCT\n" == ['\n'] + (op + ['\n']);
      ConcatAssoc(first, ['\n'], op + ['\n']);
      ConcatAssoc(first + ['\n'], op + ['\n'], second);
    }
    assert '\n' !in op;
    SplitAfterFree(first, '\n', op + ['\n'] + second);
    SplitAfterFree(op, '\n', second);
    SplitFree(second, '\n');
  }

  lemma OneLineArm(q: ExceptArgs, table: string)
    requires '\n' !in q.columns && '\n' !in table
    requires Truthy(q.whereClause) ==> '\n' !in q.whereClause.value
    ensures '\n' !in SelectArm(q, table)
  {
    assert '\n' !in "SELECT " && '\n' !in " FROM " && '\n' !in " ";
  }

  /** The query is wrapped in an outer `SELECT` exactly when a source column or
      an order-by clause is given. */
  predicate Wrapped(q: ExceptArgs) {
    Truthy(q.addSourceColumn) || Truthy(q.orderByClause)
  }

  function OuterSelect(addSourceColumn: Option<string>): (r: string)
    ensures |r| > 0 && r[0] == 'S'
  {
    if Truthy(addSourceColumn) then "SELECT *, '" + addSourceColumn.value + "' as source_table"
    else "SELECT *"
  }

  /** The outer query up to and including the parenthesis that closes the
      `EXCEPT DISTINCT` (whose text starts on a new line). */
  function WrappedHead(q: ExceptArgs): (r: string)
    ensures |r| > 0 && r[0] == 'S' && r[|r| - 1] == ')'
  {
    var o := OuterSelect(q.addSourceColumn);
    var r := o + " FROM (" + ("\n" + ExceptArms(q)) + ")";
    assert r[0] == o[0];
    r
  }

  /** Python truthiness of an optional limit: present and non-zero. */
  predicate HasLimit(limit: Option<int>) {
    limit.Some? && limit.value != 0
  }

  function LimitPart(limit: Option<int>): (r: string)
    ensures HasLimit(limit) <==> r != ""
    ensures r != "" ==> IsDigit(r[|r| - 1])
  {
    if HasLimit(limit) then " LIMIT " + IntToDecimal(limit.value) else ""
  }

  /** The number after `LIMIT` reads back as the limit: `str()` loses nothing. */
  lemma LimitPartReadsBack(limit: Option<int>)
    requires HasLimit(limit)
    ensures |LimitPart(limit)| > |" LIMIT "|
    ensures StartsWith(LimitPart(limit), " LIMIT ")
    ensures ParseInt(LimitPart(limit)[|" LIMIT "|..]) == Some(limit.value)
  {
    var digits := IntToDecimal(limit.value);
    StartsWithAppend(" LIMIT ", digits);
    assert (" LIMIT " + digits)[|" LIMIT "|..] == digits;
    IntDecimalRoundTrip(limit.value);
  }

  function OrderPart(orderByClause: Option<string>): string {
    if Truthy(orderByClause) then " " + orderByClause.value else ""
  }

  /** The text `build_except_distinct_query` assembles before its final `strip()`. */
  function ExceptLayout(q: ExceptArgs): string {
    if Wrapped(q) then WrappedHead(q) + (OrderPart(q.orderByClause) + LimitPart(q.limit))
    else "\n" + (ExceptArms(q) + LimitPart(q.limit))
  }

  /** `build_except_distinct_query`: the layout with surrounding whitespace
      stripped. Stripping never cuts into the query proper: in the wrapped form
      it can only trim the end of the order-by clause, and in the bare form only
      the newline in front of the first `SELECT` and trailing whitespace. */
  function BuildExceptDistinctQuery(q: ExceptArgs): (r: string)
    ensures Trimmed(r)
    ensures Wrapped(q) ==> r == WrappedHead(q) + StripEnd(OrderPart(q.orderByClause) + LimitPart(q.limit))
    ensures !Wrapped(q) ==> r == StripEnd(ExceptArms(q) + LimitPart(q.limit))
  {
    var layout := ExceptLayout(q);
    if Wrapped(q) then
      StripAfterTrimmedHead(WrappedHead(q), OrderPart(q.orderByClause) + LimitPart(q.limit));
      Strip(layout)
    else
      StripStartPadded("\n", ExceptArms(q) + LimitPart(q.limit));
      Strip(layout)
  }

  /** A non-zero limit always ends the query, as ` LIMIT <n>`; a zero or
      missing limit adds no `LIMIT`. */
  lemma ExceptQueryLimitLast(q: ExceptArgs)
    requires HasLimit(q.limit)
    ensures EndsWith(BuildExceptDistinctQuery(q), " LIMIT " + IntToDecimal(q.limit.value))
  {
    var lp := LimitPart(q.limit);
    if Wrapped(q) {
      var head := WrappedHead(q);
      var op := OrderPart(q.orderByClause);
      StripEndKeeps(op + lp);
      assert head + (op + lp) == (head + op) + lp;
      EndsWithAppend(head + op, lp);
    } else {
      StripEndKeeps(ExceptArms(q) + lp);
      EndsWithAppend(ExceptArms(q), lp);
    }
  }

  /** A zero or missing limit adds no `LIMIT`: the query is what it would be
      without one. */
  lemma ExceptQueryNoLimit(q: ExceptArgs)
    requires !HasLimit(q.limit)
    ensures BuildExceptDistinctQuery(q) == BuildExceptDistinctQuery(q.(limit := None))
  {
    assert LimitPart(q.limit) == "" == LimitPart(None);
  }

  /** An order-by clause with no surrounding whitespace is kept verbatim, one
      space after the closing parenthesis of the wrapped query and before any
      limit. */
  lemma ExceptQueryOrderAfterParen(q: ExceptArgs)
    requires Truthy(q.orderByClause) && Trimmed(q.orderByClause.value)
    ensures BuildExceptDistinctQuery(q) == WrappedHead(q) + (" " + q.orderByClause.value + LimitPart(q.limit))
  {
    var lp := LimitPart(q.limit);
    var ob := q.orderByClause.value;
    var tail := " " + ob + lp;
    assert tail[|tail| - 1] == if lp == "" then ob[|ob| - 1] else lp[|lp| - 1];
    StripEndKeeps(tail);
  }

  /** Without an order-by clause or a limit, the wrapped query is exactly the
      outer `SELECT` over the parenthesised `EXCEPT DISTINCT`. */
  lemma ExceptQueryClosesParen(q: ExceptArgs)
    requires Truthy(q.addSourceColumn) && !Truthy(q.orderByClause) && !HasLimit(q.limit)
    ensures BuildExceptDistinctQuery(q) == WrappedHead(q)
  {
    assert OrderPart(q.orderByClause) + LimitPart(q.limit) == "";
    assert StripEnd("") == "";
  }

  /** `build_union_query`'s operands: each query in parentheses. */
  function Parenthesized(queries: seq<string>): (r: seq<string>)
    ensures |r| == |queries|
    ensures forall i :: 0 <= i < |queries| ==> r[i] == "(" + queries[i] + ")"
  {
    seq(|queries|, i requires 0 <= i < |queries| => "(" + queries[i] + ")")
  }

  const UnionAll := " UNION ALL "

  /** `build_union_query`: the queries, each in parentheses, joined by
      `UNION ALL` in their given order; an order-by clause wraps the union in an
      outer `SELECT` and follows it. */
  function BuildUnionQuery(queries: seq<string>, orderByClause: Option<string>): (r: string)
    ensures |queries| == 0 && !Truthy(orderByClause) ==> r == ""
    ensures |queries| == 1 && !Truthy(orderByClause) ==> r == "(" + queries[0] + ")"
    ensures |queries| >= 1 && !Truthy(orderByClause) ==>
              StartsWith(r, "(" + queries[0] + ")") && EndsWith(r, "(" + queries[|queries| - 1] + ")")
    ensures Truthy(orderByClause) ==>
              StartsWith(r, "SELECT * FROM (") && EndsWith(r, ") " + orderByClause.value)
  {
    var unionQuery := Join(Parenthesized(queries), UnionAll);
    UnionEnds(queries);
    if Truthy(orderByClause) then
      var r := "SELECT * FROM (" + unionQuery + ") " + orderByClause.value;
      StartsWithAppend("SELECT * FROM (", unionQuery + ") " + orderByClause.value);
      EndsWithAppend("SELECT * FROM (" + unionQuery, ") " + orderByClause.value);
      assert r == "SELECT * FROM (" + (unionQuery + ") " + orderByClause.value);
      assert r == "SELECT * FROM (" + unionQuery + (") " + orderByClause.value);
      r
    else unionQuery
  }

  /** With an order-by clause the result is exactly the plain union, wrapped. */
  lemma UnionOrderWraps(queries: seq<string>, orderByClause: Option<string>)
    requires Truthy(orderByClause)
    ensures BuildUnionQuery(queries, orderByClause)
            == "SELECT * FROM (" + BuildUnionQuery(queries, None) + ") " + orderByClause.value
  {
  }

  lemma {:induction false} UnionEnds(queries: seq<string>)
    ensures var u := Join(Parenthesized(queries), UnionAll);
            |queries| >= 1 ==> StartsWith(u, "(" + queries[0] + ")") && EndsWith(u, "(" + queries[|queries| - 1] + ")")
    decreases |queries|
  {
    if |queries| > 1 {
      UnionEnds(queries[1..]);
      assert Parenthesized(queries)[1..] == Parenthesized(queries[1..]);
    }
  }

  /** The union of a concatenation is the union of the two halves joined by one
      more `UNION ALL`: queries keep their order. */
  lemma UnionAppend(a: seq<string>, b: seq<string>)
    requires |a| >= 1 && |b| >= 1
    ensures BuildUnionQuery(a + b, None) == BuildUnionQuery(a, None) + UnionAll + BuildUnionQuery(b, None)
  {
    assert Parenthesized(a + b) == Parenthesized(a) + Parenthesized(b);
    JoinAppend(Parenthesized(a), Parenthesized(b), UnionAll);
  }

  /** Two queries, as the difference export combines them. */
  lemma UnionOfTwo(q1: string, q2: string)
    ensures BuildUnionQuery([q1, q2], None) == "(" + q1 + ")" + UnionAll + "(" + q2 + ")"
  {
    assert [q1, q2] == [q1] + [q2];
    UnionAppend([q1], [q2]);
  }
}

=== FILE: table_comparator.dfy ===
/** `TableComparator.analyze_schemas` and the command-line `parse_table_path`
    of the table comparison script: set relations between two schemas, and
    splitting a fully qualified table name. */
module TableComparator {
  import opened Wrappers
  import opened Text
  import Assoc
  import Ordering
  import QueryBuilder

  /** A table schema as `INFORMATION_SCHEMA.COLUMNS` lists it: `(column_name,
      data_type)` pairs in ordinal order. */
  type Schema = seq<(string, string)>

  /** The set of column names of a schema. */
  function ColumnNames(schema: Schema): (r: set<string>)
    ensures forall i :: 0 <= i < |schema| ==> schema[i].0 in r
    ensures forall c :: c in r ==> exists i :: 0 <= i < |schema| && schema[i].0 == c
  {
    set i | 0 <= i < |schema| :: schema[i].0
  }

  /** `[col.strip() for col in parts]`. */
  function StripAll(parts: seq<string>): (r: seq<string>)
    ensures |r| == |parts|
    ensures forall i :: 0 <= i < |parts| ==> r[i] == Strip(parts[i])
  {
    MapSeq(Strip, parts)
  }

  /** The columns named by a `--specific-columns` argument: split on commas,
      each name stripped. The names are the stripped comma-free pieces that,
      joined with commas, give back the argument. */
  function SpecifiedColumns(specificColumns: string): (r: seq<string>)
    ensures |r| == Count(specificColumns, ',') + 1
    ensures forall i :: 0 <= i < |r| ==> Trimmed(r[i]) && ',' !in r[i]
    ensures exists parts :: && Join(parts, ",") == specificColumns && |parts| == |r|
                            && forall i :: 0 <= i < |r| ==> ',' !in parts[i] && r[i] == Strip(parts[i])
  {
    var parts := Split(specificColumns, ',');
    JoinSplit(specificColumns, ',');
    assert [','] == ",";
    var r := StripAll(parts);
    assert forall i :: 0 <= i < |r| ==> ',' !in r[i] by {
      forall i | 0 <= i < |r| ensures ',' !in r[i] {
        StripInfix(parts[i], ',');
      }
    }
    r
  }

  /** Reading back comma-joined pieces gives exactly those pieces,
      stripped: the names a `--specific-columns` argument yields are
      determined by how its commas cut it. */
  lemma SpecifiedColumnsOfJoin(parts: seq<string>)
    requires |parts| >= 1
    requires forall i :: 0 <= i < |parts| ==> ',' !in parts[i]
    ensures SpecifiedColumns(Join(parts, ",")) == StripAll(parts)
  {
    assert [','] == ",";
    SplitJoin(parts, ',');
  }

  /** The elements of a sequence, as a set. */
  function Elements(s: seq<string>): (r: set<string>)
    ensures forall x :: x in r <==> x in s
  {
    set x | x in s
  }

  /** A column present in both tables whose types differ: the name and the
      type on each side. */
  datatype Mismatch = Mismatch(column: string, type1: string, type2: string)

  /** The dictionary `analyze_schemas` returns. Python builds
      `schema_mismatches` by iterating a set, so its order is unspecified; it
      is modelled as a set. */
  datatype SchemaAnalysis = SchemaAnalysis(
    commonColumns: set<string>,
    onlyInTable1: set<string>,
    onlyInTable2: set<string>,
    schemaMismatches: set<Mismatch>,
    missingSpecifiedCols: set<string>,
    schemasIdentical: bool)

  /** The type a schema gives a column, as `dict(schema)[col]` reads it: the
      type of the last pair with that name. */
  predicate TypeOf(schema: Schema, column: string, dataType: string) {
    exists i :: 0 <= i < |schema| && Assoc.IsLastForKey(schema, i) && schema[i] == (column, dataType)
  }

  /** The columns compared: those both tables have, narrowed to the named
      ones when specific columns are given. */
  function CommonColumns(columns1: set<string>, columns2: set<string>, specificColumns: Option<string>,
                         named: set<string>): (common: set<string>)
    ensures common <= columns1 && common <= columns2
    ensures !Truthy(specificColumns) ==> common == columns1 * columns2
    ensures Truthy(specificColumns) ==> common <= named
    ensures Truthy(specificColumns) ==> forall c :: c in named && c in columns1 && c in columns2 ==> c in common
  {
    if Truthy(specificColumns) then named * columns1 * columns2 else columns1 * columns2
  }

  /** One mismatch per compared column whose two types differ. */
  function Mismatches(common: set<string>, types1: map<string, string>, types2: map<string, string>)
    : (r: set<Mismatch>)
    ensures forall m :: m in r ==> m.column in common && m.type1 != m.type2
    ensures forall m :: m in r ==>
              m.column in types1 && m.column in types2 && m.type1 == types1[m.column] && m.type2 == types2[m.column]
    ensures forall c :: (c in common && c in types1 && c in types2 && types1[c] != types2[c]) ==>
              Mismatch(c, types1[c], types2[c]) in r
  {
    set c | c in common && c in types1 && c in types2 && types1[c] != types2[c] :: Mismatch(c, types1[c], types2[c])
  }

  /** `analyze_schemas`. */
  function AnalyzeSchemas(schema1: Schema, schema2: Schema, specificColumns: Option<string>): (r: SchemaAnalysis)
    ensures r.onlyInTable1 !! ColumnNames(schema2) && r.onlyInTable2 !! ColumnNames(schema1)
    ensures ColumnNames(schema1) == r.onlyInTable1 + (ColumnNames(schema1) * ColumnNames(schema2))
    ensures ColumnNames(schema2) == r.onlyInTable2 + (ColumnNames(schema1) * ColumnNames(schema2))
    ensures r.commonColumns <= ColumnNames(schema1) && r.commonColumns <= ColumnNames(schema2)
    ensures !Truthy(specificColumns) ==>
              r.commonColumns == ColumnNames(schema1) * ColumnNames(schema2) && r.missingSpecifiedCols == {}
    ensures Truthy(specificColumns) ==>
              var named := Elements(SpecifiedColumns(specificColumns.value));
              && r.commonColumns <= named
              && (forall c :: c in named && c in ColumnNames(schema1) && c in ColumnNames(schema2) ==> c in r.commonColumns)
              && r.missingSpecifiedCols + r.commonColumns == named
              && r.missingSpecifiedCols !! r.commonColumns
    ensures forall m :: m in r.schemaMismatches ==> m.column in r.commonColumns && m.type1 != m.type2
    ensures Truthy(specificColumns) ==> !r.schemasIdentical
  {
    var columns1 := ColumnNames(schema1);
    var columns2 := ColumnNames(schema2);
    var named := if Truthy(specificColumns) then Elements(SpecifiedColumns(specificColumns.value)) else {};
    var common := CommonColumns(columns1, columns2, specificColumns, named);
    var missing := if Truthy(specificColumns) then named - common else {};
    var mismatches := Mismatches(common, Assoc.LastWins(schema1), Assoc.LastWins(schema2));
    SchemaAnalysis(
      common,
      columns1 - columns2,
      columns2 - columns1,
      mismatches,
      missing,
      |schema1| == |schema2| && mismatches == {} && !Truthy(specificColumns))
  }

  /** Every key of `dict(schema)` is a column of the schema and vice versa. */
  lemma {:induction false} DictKeysAreColumns(schema: Schema)
    ensures forall c :: c in Assoc.LastWins(schema) <==> c in ColumnNames(schema)
  {
    forall c | c in Assoc.LastWins(schema)
      ensures c in ColumnNames(schema)
    {
      Assoc.LastWinsKeys(schema, c);
    }
  }

  /** The type `dict(schema)` holds for a column is the type of the last pair
      with that name. */
  lemma {:induction false} DictTypeOf(schema: Schema, column: string)
    requires column in ColumnNames(schema)
    ensures column in Assoc.LastWins(schema)
    ensures TypeOf(schema, column, Assoc.LastWins(schema)[column])
  {
    var i := LastIndexOf(schema, column);
    assert schema[i] == (column, Assoc.LastWins(schema)[column]);
  }

  /** The index of the last pair for a column of the schema. */
  lemma {:induction false} LastIndexExists(schema: Schema, column: string)
    requires column in ColumnNames(schema)
    ensures exists i :: Assoc.IsLastForKey(schema, i) && schema[i].0 == column
    decreases |schema|
  {
    var last := |schema| - 1;
    if schema[last].0 == column {
      assert Assoc.IsLastForKey(schema, last);
    } else {
      var init := schema[..last];
      var k :| 0 <= k < |schema| && schema[k].0 == column;
      assert init[k].0 == column;
      LastIndexExists(init, column);
      var i :| Assoc.IsLastForKey(init, i) && init[i].0 == column;
      forall j | i < j < |schema| ensures schema[j].0 != schema[i].0 {
        if j < last {
          assert schema[j] == init[j];
        }
      }
      assert Assoc.IsLastForKey(schema, i);
    }
  }

  function LastIndexOf(schema: Schema, column: string): (i: int)
    requires column in ColumnNames(schema)
    ensures Assoc.IsLastForKey(schema, i) && schema[i].0 == column
  {
    LastIndexExists(schema, column);
    var i :| Assoc.IsLastForKey(schema, i) && schema[i].0 == column;
    i
  }

  /** A mismatch is recorded exactly for a common column whose last-declared
      types differ, and it carries those two types. */
  lemma MismatchIff(schema1: Schema, schema2: Schema, specificColumns: Option<string>, m: Mismatch)
    ensures m in AnalyzeSchemas(schema1, schema2, specificColumns).schemaMismatches
            <==> && m.column in AnalyzeSchemas(schema1, schema2, specificColumns).commonColumns
                 && TypeOf(schema1, m.column, m.type1)
                 && TypeOf(schema2, m.column, m.type2)
                 && m.type1 != m.type2
  {
    var r := AnalyzeSchemas(schema1, schema2, specificColumns);
    var c := m.column;
    if c in r.commonColumns {
      var d1 := Assoc.LastWins(schema1);
      var d2 := Assoc.LastWins(schema2);
      DictTypeOf(schema1, c);
      DictTypeOf(schema2, c);
      if TypeOf(schema1, c, m.type1) && TypeOf(schema2, c, m.type2) {
        TypeOfUnique(schema1, c, m.type1, d1[c]);
        TypeOfUnique(schema2, c, m.type2, d2[c]);
      }
      assert m in r.schemaMismatches <==> m == Mismatch(c, d1[c], d2[c]) && d1[c] != d2[c];
    }
  }

  /** A schema gives each column at most one type. */
  lemma TypeOfUnique(schema: Schema, column: string, t: string, u: string)
    requires TypeOf(schema, column, t) && TypeOf(schema, column, u)
    ensures t == u
  {
    var i :| 0 <= i < |schema| && Assoc.IsLastForKey(schema, i) && schema[i] == (column, t);
    var j :| 0 <= j < |schema| && Assoc.IsLastForKey(schema, j) && schema[j] == (column, u);
  }

  /** Every column the two schemas share has the same type in both. */
  ghost predicate SameTypes(schema1: Schema, schema2: Schema) {
    forall c, t1, t2 ::
      (c in ColumnNames(schema1) && c in ColumnNames(schema2) && TypeOf(schema1, c, t1) && TypeOf(schema2, c, t2))
      ==> t1 == t2
  }

  /** `schemas_identical` is false whenever specific columns are given, and
      otherwise holds exactly when the schemas have the same length and no
      common column changes type. */
  lemma SchemasIdenticalIff(schema1: Schema, schema2: Schema, specificColumns: Option<string>)
    ensures AnalyzeSchemas(schema1, schema2, specificColumns).schemasIdentical
            <==> && !Truthy(specificColumns)
                 && |schema1| == |schema2|
                 && SameTypes(schema1, schema2)
  {
    var r := AnalyzeSchemas(schema1, schema2, specificColumns);
    if !Truthy(specificColumns) && |schema1| == |schema2| {
      if r.schemaMismatches != {} {
        var m :| m in r.schemaMismatches;
        MismatchIff(schema1, schema2, specificColumns, m);
      } else {
        forall c, t1, t2 | c in ColumnNames(schema1) && c in ColumnNames(schema2)
                           && TypeOf(schema1, c, t1) && TypeOf(schema2, c, t2)
          ensures t1 == t2
        {
          if t1 != t2 {
            MismatchIff(schema1, schema2, specificColumns, Mismatch(c, t1, t2));
          }
        }
      }
    }
  }

  // ---------------------------------------------------------------------------
  // schemas_identical ignores columns present in only one table
  // ---------------------------------------------------------------------------

  /** Two schemas of equal length that share one column and differ in the
      other are reported identical. */
  lemma SchemasIdenticalIgnoresRenamedColumn()
    ensures AnalyzeSchemas([("a", "INT64"), ("b", "INT64")], [("a", "INT64"), ("c", "INT64")], None).schemasIdentical
    ensures AnalyzeSchemas([("a", "INT64"), ("b", "INT64")], [("a", "INT64"), ("c", "INT64")], None).onlyInTable1 == {"b"}
  {
    var s1: Schema := [("a", "INT64"), ("b", "INT64")];
    var s2: Schema := [("a", "INT64"), ("c", "INT64")];
    TwoColumns(s1);
    TwoColumns(s2);
    var r := AnalyzeSchemas(s1, s2, None);
    assert r.commonColumns == {"a"};
    assert Assoc.IsLastForKey(s1, 0) && Assoc.IsLastForKey(s2, 0);
    assert Assoc.LastWins(s1)["a"] == "INT64" == Assoc.LastWins(s2)["a"];
    assert r.schemaMismatches == {};
  }

  lemma TwoColumns(schema: Schema)
    requires |schema| == 2
    ensures ColumnNames(schema) == {schema[0].0, schema[1].0}
  {
    forall c | c in ColumnNames(schema)
      ensures c == schema[0].0 || c == schema[1].0
    {
      var i :| 0 <= i < |schema| && schema[i].0 == c;
    }
  }

  /** `schemas_identical` as evidently intended: additionally, neither table
      has a column the other lacks. */
  function SchemasIdenticalCorrected(schema1: Schema, schema2: Schema, specificColumns: Option<string>): (identical: bool)
    ensures identical ==> ColumnNames(schema1) == ColumnNames(schema2)
  {
    var r := AnalyzeSchemas(schema1, schema2, specificColumns);
    r.schemasIdentical && r.onlyInTable1 == {} && r.onlyInTable2 == {}
  }

  /** When the corrected verdict holds, the two schemas map every column to the
      same type: `dict(schema1) == dict(schema2)`. */
  lemma SchemasIdenticalCorrectedSound(schema1: Schema, schema2: Schema, specificColumns: Option<string>)
    requires SchemasIdenticalCorrected(schema1, schema2, specificColumns)
    ensures Assoc.LastWins(schema1) == Assoc.LastWins(schema2)
  {
    var d1 := Assoc.LastWins(schema1);
    var d2 := Assoc.LastWins(schema2);
    DictKeysAreColumns(schema1);
    DictKeysAreColumns(schema2);
    assert d1.Keys == d2.Keys;
    SchemasIdenticalIff(schema1, schema2, specificColumns);
    forall c | c in d1
      ensures d1[c] == d2[c]
    {
      DictTypeOf(schema1, c);
      DictTypeOf(schema2, c);
    }
  }

  /** The corrected verdict turns down the renamed-column pair. */
  lemma CorrectedRejectsRenamedColumn()
    ensures !SchemasIdenticalCorrected([("a", "INT64"), ("b", "INT64")], [("a", "INT64"), ("c", "INT64")], None)
  {
    SchemasIdenticalIgnoresRenamedColumn();
  }

  // ---------------------------------------------------------------------------
  // The column list round trip
  // ---------------------------------------------------------------------------

  /** Handing the column list built from a set of common columns back as
      `--specific-columns` names exactly those columns, in sorted order. */
  lemma ColumnListRoundTrip(common: set<string>)
    requires common != {}
    requires forall c :: c in common ==> Trimmed(c) && ',' !in c
    ensures SpecifiedColumns(QueryBuilder.BuildColumnList(None, Some(common))) == Ordering.SortedElements(common)
  {
    var names := Ordering.SortedElements(common);
    var joined := Join(names, ", ");
    assert QueryBuilder.BuildColumnList(None, Some(common)) == joined;
    assert StripAll(Split(joined, ',')) == names by {
      SortedNamesClean(common);
      StripSplitJoin("", names);
      EmptyPrefix(joined);
    }
  }

  lemma SortedNamesClean(common: set<string>)
    requires common != {}
    requires forall c :: c in common ==> Trimmed(c) && ',' !in c
    ensures |Ordering.SortedElements(common)| >= 1 && CleanNames(Ordering.SortedElements(common))
  {
    var names := Ordering.SortedElements(common);
    assert forall i :: 0 <= i < |names| ==> names[i] in common;
  }

  /** Splitting a `", "`-joined list on commas and stripping each part gives
      back the names, whatever whitespace precedes the first. */
  lemma {:induction false} StripSplitJoin(pad: string, names: seq<string>)
    requires AllSpace(pad) && ',' !in pad
    requires |names| >= 1
    requires CleanNames(names)
    ensures StripAll(Split(pad + Join(names, ", "), ',')) == names
    decreases |names|
  {
    if |names| == 1 {
      StripSplitJoinOne(pad, names);
    } else {
      CleanTail(names);
      SpacePad();
      StripSplitJoin(" ", names[1..]);
      StripSplitJoinStep(pad, names);
    }
  }

  /** Names a column list can carry through a split on commas. */
  predicate CleanNames(names: seq<string>) {
    forall i :: 0 <= i < |names| ==> Trimmed(names[i]) && ',' !in names[i]
  }

  lemma CleanTail(names: seq<string>)
    requires |names| > 0 && CleanNames(names)
    ensures CleanNames(names[1..]) && Trimmed(names[0]) && ',' !in names[0]
  {
    assert forall i :: 0 <= i < |names[1..]| ==> names[1..][i] == names[i + 1];
  }

  /** The base case of `StripSplitJoin`: a single name. */
  lemma StripSplitJoinOne(pad: string, names: seq<string>)
    requires AllSpace(pad) && ',' !in pad
    requires |names| == 1 && Trimmed(names[0]) && ',' !in names[0]
    ensures StripAll(Split(pad + Join(names, ", "), ',')) == names
  {
    PaddedName(pad, names[0]);
    SplitFree(pad + names[0], ',');
  }

  /** One step of `StripSplitJoin`: the first name, then the rest as the
      induction hypothesis gives them. */
  lemma StripSplitJoinStep(pad: string, names: seq<string>)
    requires AllSpace(pad) && ',' !in pad
    requires |names| >= 2 && Trimmed(names[0]) && ',' !in names[0]
    requires StripAll(Split(" " + Join(names[1..], ", "), ',')) == names[1..]
    ensures StripAll(Split(pad + Join(names, ", "), ',')) == names
  {
    var first := pad + names[0];
    var tailParts := Split(" " + Join(names[1..], ", "), ',');
    PaddedName(pad, names[0]);
    SplitStep(pad, names);
    StripAllCons(first, tailParts);
    HeadTail(names);
  }

  lemma StripAllCons(first: string, rest: seq<string>)
    ensures StripAll([first] + rest) == [Strip(first)] + StripAll(rest)
  {
    MapSeqCons(Strip, first, rest);
  }

  /** A name after whitespace: no comma, and stripping recovers the name. */
  lemma PaddedName(pad: string, name: string)
    requires AllSpace(pad) && ',' !in pad
    requires Trimmed(name) && ',' !in name
    ensures ',' !in pad + name
    ensures Strip(pad + name) == name
  {
    StripPadded(pad, name, "");
    assert pad + name + "" == pad + name;
  }

  lemma SpacePad()
    ensures AllSpace(" ") && ',' !in " "
  {
  }

  /** The first comma of a `", "`-joined list ends the first part. */
  lemma SplitStep(pad: string, names: seq<string>)
    requires |names| >= 2 && ',' !in pad + names[0]
    ensures Split(pad + Join(names, ", "), ',')
            == [pad + names[0]] + Split(" " + Join(names[1..], ", "), ',')
  {
    JoinCommaSpace(pad, names);
    SplitAfterFree(pad + names[0], ',', " " + Join(names[1..], ", "));
  }

  lemma JoinCommaSpace(pad: string, names: seq<string>)
    requires |names| >= 2
    ensures pad + Join(names, ", ") == pad + names[0] + [','] + (" " + Join(names[1..], ", "))
  {
    var j := Join(names[1..], ", ");
    var n := names[0];
    assert Join(names, ", ") == n + ", " + j;
    assert ", " == [','] + " ";
    ConcatAssoc(n, [','], " ");
    ConcatAssoc(n + [','], " ", j);
    ConcatAssoc(pad, n + [','], " " + j);
    ConcatAssoc(pad, n, [',']);
  }

  // ---------------------------------------------------------------------------
  // parse_table_path
  // ---------------------------------------------------------------------------

  /** A fully qualified BigQuery table name. */
  datatype TablePath = TablePath(project: string, dataset: string, table: string)

  const PathFormatMessage := "Table path must be in format 'project.dataset.table', got: "

  /** `parse_table_path`: exactly three dot-separated parts, or a `ValueError`
      quoting the path. Empty parts are accepted. */
  function ParseTablePath(path: string): (r: Result<TablePath>)
    ensures r.Ok? <==> Count(path, '.') == 2
    ensures r.Ok? ==> path == r.value.project + "." + r.value.dataset + "." + r.value.table
    ensures r.Ok? ==> '.' !in r.value.project && '.' !in r.value.dataset && '.' !in r.value.table
    ensures r.Err? ==> r.message == PathFormatMessage + path
  {
    var parts := Split(path, '.');
    if |parts| != 3 then Err(PathFormatMessage + path)
    else
      JoinSplit(path, '.');
      assert Join(parts, ".") == parts[0] + "." + Join(parts[1..], ".");
      assert Join(parts[1..], ".") == parts[1] + "." + parts[2];
      Ok(TablePath(parts[0], parts[1], parts[2]))
  }

  /** Parsing inverts joining the three names with dots. */
  lemma ParseTablePathRoundTrip(p: TablePath)
    requires '.' !in p.project && '.' !in p.dataset && '.' !in p.table
    ensures ParseTablePath(p.project + "." + p.dataset + "." + p.table) == Ok(p)
  {
    var parts := [p.project, p.dataset, p.table];
    assert Join(parts[1..], ".") == p.dataset + "." + p.table;
    assert Join(parts, ".") == p.project + "." + p.dataset + "." + p.table;
    SplitJoin(parts, '.');
  }

  /** The default configuration's first table name parses. */
  lemma DefaultTablePathParses()
    ensures ParseTablePath("project.dataset.table") == Ok(TablePath("project", "dataset", "table"))
  {
    var p := TablePath("project", "dataset", "table");
    assert '.' !in p.project && '.' !in p.dataset && '.' !in p.table;
    assert p.project + "." + p.dataset + "." + p.table == "project.dataset.table";
    ParseTablePathRoundTrip(p);
  }
}

=== FILE: table_usage.dfy ===
/** The table usage tracker: which tables of the target datasets are reported,
    the exclusion filter on table names, the `region-<location>` qualifier of
    the jobs view, the join with the last-query lookup, and the CSV row of one
    table. BigQuery itself is a parameter: `tablesOf` stands for the
    `INFORMATION_SCHEMA.TABLES` query of one dataset and `jobRows` for the rows
    of the `JOBS_BY_PROJECT` query. */
module TableUsage {
  import opened Wrappers
  import opened Text
  import Assoc

  /** A BigQuery `TIMESTAMP` value, represented by its `isoformat()` text. */
  datatype Timestamp = Timestamp(iso: string)

  const TargetDatasets: seq<string> := ["dataset1", "dataset2", "dataset3"]
  const ExcludedTableNameSubstrings: seq<string> := ["irrelevant table names", "irrelevant table names"]
  const DefaultLocation := "US"

  // ---------------------------------------------------------------------------
  // Exclusions
  // ---------------------------------------------------------------------------

  /** `_normalize_exclusions`: `None` counts as no exclusions, empty strings are
      dropped, the rest are lower-cased, in order. */
  function NormalizeExclusions(values: Option<seq<string>>): (r: seq<string>)
    ensures values.None? ==> r == []
    ensures |r| <= |values.GetOr([])|
    ensures forall i :: 0 <= i < |r| ==> r[i] != "" && IsLower(r[i])
  {
    match values
    case None => []
    case Some(vs) => LowerNonEmpty(vs)
  }

  /** The lower-cased forms of the non-empty strings of `vs`, in order. */
  function LowerNonEmpty(vs: seq<string>): (r: seq<string>)
    ensures |r| <= |vs|
    ensures forall i :: 0 <= i < |r| ==> r[i] != "" && IsLower(r[i])
    decreases |vs|
  {
    if |vs| == 0 then []
    else
      var rest := LowerNonEmpty(vs[1..]);
      if vs[0] == "" then rest
      else
        LowerIdempotent(vs[0]);
        [Lower(vs[0])] + rest
  }

  /** An exclusion survives normalisation exactly when it is the lower-cased
      form of some non-empty value. */
  lemma {:induction false} LowerNonEmptyMembers(vs: seq<string>, x: string)
    ensures x in LowerNonEmpty(vs) <==> exists i :: 0 <= i < |vs| && vs[i] != "" && Lower(vs[i]) == x
    decreases |vs|
  {
    if |vs| > 0 {
      LowerNonEmptyMembers(vs[1..], x);
      if exists i :: 0 < i < |vs| && vs[i] != "" && Lower(vs[i]) == x {
        var i :| 0 < i < |vs| && vs[i] != "" && Lower(vs[i]) == x;
        assert vs[1..][i - 1] == vs[i];
      }
      if exists i :: 0 <= i < |vs[1..]| && vs[1..][i] != "" && Lower(vs[1..][i]) == x {
        var i :| 0 <= i < |vs[1..]| && vs[1..][i] != "" && Lower(vs[1..][i]) == x;
        assert vs[i + 1] == vs[1..][i];
      }
    }
  }

  /** Normalising a concatenation normalises each part: order is kept. */
  lemma {:induction false} LowerNonEmptyAppend(a: seq<string>, b: seq<string>)
    ensures LowerNonEmpty(a + b) == LowerNonEmpty(a) + LowerNonEmpty(b)
    decreases |a|
  {
    if |a| > 0 {
      assert (a + b)[1..] == a[1..] + b;
      LowerNonEmptyAppend(a[1..], b);
    } else {
      assert a + b == b;
    }
  }

  /** Normalising normalised exclusions changes nothing. */
  lemma {:induction false} NormalizeExclusionsIdempotent(values: Option<seq<string>>)
    ensures NormalizeExclusions(Some(NormalizeExclusions(values))) == NormalizeExclusions(values)
  {
    FixesNormalized(NormalizeExclusions(values));
  }

  lemma {:induction false} FixesNormalized(vs: seq<string>)
    requires forall i :: 0 <= i < |vs| ==> vs[i] != "" && IsLower(vs[i])
    ensures LowerNonEmpty(vs) == vs
    decreases |vs|
  {
    if |vs| > 0 {
      FixesNormalized(vs[1..]);
      LowerFixesLower(vs[0]);
      assert [vs[0]] + vs[1..] == vs;
    }
  }

  /** `_is_excluded`: some exclusion occurs in the lower-cased table name. */
  function IsExcluded(tableId: string, exclusions: seq<string>): (r: bool)
    ensures r <==> exists i :: 0 <= i < |exclusions| && IsInfix(exclusions[i], Lower(tableId))
  {
    AnyOccurs(exclusions, Lower(tableId))
  }

  /** Python's `any(e in hay for e in exclusions)`. */
  function AnyOccurs(exclusions: seq<string>, hay: string): (r: bool)
    ensures r <==> exists i :: 0 <= i < |exclusions| && IsInfix(exclusions[i], hay)
    decreases |exclusions|
  {
    if |exclusions| == 0 then false
    else
      var rest := AnyOccurs(exclusions[1..], hay);
      assert forall i :: 0 < i < |exclusions| ==> exclusions[i] == exclusions[1..][i - 1];
      IsInfix(exclusions[0], hay) || rest
  }

  /** Table names that agree up to case are excluded alike. */
  lemma ExclusionIgnoresCase(a: string, b: string, exclusions: seq<string>)
    requires Lower(a) == Lower(b)
    ensures IsExcluded(a, exclusions) == IsExcluded(b, exclusions)
  {
  }

  /** With configured substrings normalised first, a table is excluded exactly
      when some non-empty configured substring occurs in its name, ignoring
      case on both sides. */
  lemma ExcludedIffConfiguredOccurs(tableId: string, configured: seq<string>)
    ensures IsExcluded(tableId, NormalizeExclusions(Some(configured)))
            <==> exists i :: 0 <= i < |configured| && configured[i] != ""
                             && IsInfix(Lower(configured[i]), Lower(tableId))
  {
    var ex := NormalizeExclusions(Some(configured));
    if IsExcluded(tableId, ex) {
      var j :| 0 <= j < |ex| && IsInfix(ex[j], Lower(tableId));
      LowerNonEmptyMembers(configured, ex[j]);
    }
    if exists i :: 0 <= i < |configured| && configured[i] != "" && IsInfix(Lower(configured[i]), Lower(tableId)) {
      var i :| 0 <= i < |configured| && configured[i] != "" && IsInfix(Lower(configured[i]), Lower(tableId));
      LowerNonEmptyMembers(configured, Lower(configured[i]));
      var j :| 0 <= j < |ex| && ex[j] == Lower(configured[i]);
    }
  }

  /** A configured substring that occurs verbatim in a table name excludes it. */
  lemma VerbatimOccurrenceExcludes(tableId: string, configured: seq<string>, i: int)
    requires 0 <= i < |configured| && configured[i] != ""
    requires IsInfix(configured[i], tableId)
    ensures IsExcluded(tableId, NormalizeExclusions(Some(configured)))
  {
    LowerPreservesInfix(configured[i], tableId);
    ExcludedIffConfiguredOccurs(tableId, configured);
  }

  /** Without exclusions nothing is excluded. */
  lemma NothingExcludedByDefault(tableId: string)
    ensures !IsExcluded(tableId, NormalizeExclusions(None))
    ensures !IsExcluded(tableId, NormalizeExclusions(Some([""])))
  {
  }

  // ---------------------------------------------------------------------------
  // The jobs view and the last-query lookup
  // ---------------------------------------------------------------------------

  const RegionPrefixError := "location cannot be empty"

  /** `_region_prefix`: `region-` and the stripped, lower-cased location; a
      `ValueError` for a location with no visible text. */
  function RegionPrefix(location: string): (r: Result<string>)
    ensures r.Err? <==> AllSpace(location)
    ensures r.Err? ==> r.message == RegionPrefixError
    ensures r.Ok? ==>
              && StartsWith(r.value, "region-")
              && |r.value| == |"region-"| + |Strip(location)|
              && Lower(Strip(location)) == r.value[|"region-"|..]
  {
    var stripped := Strip(location);
    if stripped == "" then Err(RegionPrefixError)
    else
      var r := "region-" + Lower(stripped);
      StartsWithAppend("region-", Lower(stripped));
      assert r[|"region-"|..] == Lower(stripped);
      Ok(r)
  }

  /** Whitespace around the location does not matter. */
  lemma RegionPrefixPadding(pad1: string, location: string, pad2: string)
    requires AllSpace(pad1) && AllSpace(pad2) && Trimmed(location)
    ensures RegionPrefix(pad1 + location + pad2) == RegionPrefix(location)
  {
    StripPadded(pad1, location, pad2);
    StripTrimmed(location);
  }

  /** The location's case does not matter. */
  lemma RegionPrefixIgnoresCase(a: string, b: string)
    requires Lower(a) == Lower(b)
    ensures RegionPrefix(a) == RegionPrefix(b)
  {
    StripLower(a);
    StripLower(b);
  }

  /** The default location names the `region-us` jobs view. */
  lemma DefaultRegionPrefix()
    ensures RegionPrefix(DefaultLocation) == Ok("region-us")
  {
    var loc := DefaultLocation;
    assert |loc| == 2 && loc[0] == 'U' && loc[1] == 'S';
    assert Trimmed(loc);
    StripTrimmed(loc);
    assert Lower(loc)[0] == 'u' && Lower(loc)[1] == 's';
    assert Lower(loc) == "us";
    assert "region-" + "us" == "region-us";
  }

  /** A row of the `JOBS_BY_PROJECT` query: a referenced table and the time it
      was last queried. */
  datatype JobRow = JobRow(datasetId: string, tableId: string, lastQueryTime: Option<Timestamp>)

  type TableKey = (string, string)

  /** What `_fetch_last_query_times` does before any result comes back: no
      query at all for no datasets (`Ok(None)`), the jobs view it reads
      otherwise, or the `ValueError` of a blank location. */
  function LastQueryPlan(datasets: seq<string>, location: string): (r: Result<Option<string>>)
    ensures |datasets| == 0 ==> r == Ok(None)
    ensures |datasets| > 0 ==> (r.Err? <==> AllSpace(location))
    ensures r.Ok? && r.value.Some? ==>
              |datasets| > 0 && r.value.value == "`" + RegionPrefix(location).value + ".INFORMATION_SCHEMA.JOBS_BY_PROJECT`"
  {
    if |datasets| == 0 then Ok(None)
    else
      match RegionPrefix(location)
      case Err(e) => Err(e)
      case Ok(prefix) => Ok(Some("`" + prefix + ".INFORMATION_SCHEMA.JOBS_BY_PROJECT`"))
  }

  /** The `(dataset, table)` keys and times of the query result. */
  function JobPairs(rows: seq<JobRow>): (r: seq<(TableKey, Option<Timestamp>)>)
    ensures |r| == |rows|
    ensures forall i :: 0 <= i < |rows| ==> r[i] == ((rows[i].datasetId, rows[i].tableId), rows[i].lastQueryTime)
  {
    seq(|rows|, i requires 0 <= i < |rows| => ((rows[i].datasetId, rows[i].tableId), rows[i].lastQueryTime))
  }

  /** `_fetch_last_query_times`: an empty map without a query for no datasets;
      otherwise the query's rows keyed by `(dataset_id, table_id)`, a later row
      for the same key replacing an earlier one. */
  function FetchLastQueryTimes(datasets: seq<string>, location: string, jobRows: seq<JobRow>)
    : (r: Result<map<TableKey, Option<Timestamp>>>)
    ensures |datasets| == 0 ==> r == Ok(map[])
    ensures |datasets| > 0 ==> (r.Err? <==> AllSpace(location))
    ensures r.Ok? && |datasets| > 0 ==>
              forall i :: 0 <= i < |jobRows| ==> (jobRows[i].datasetId, jobRows[i].tableId) in r.value
    ensures r.Ok? && |datasets| > 0 ==>
              forall i :: 0 <= i < |jobRows| && LastRowForKey(jobRows, i) ==>
                r.value[(jobRows[i].datasetId, jobRows[i].tableId)] == jobRows[i].lastQueryTime
  {
    match LastQueryPlan(datasets, location)
    case Err(e) => Err(e)
    case Ok(None) => Ok(map[])
    case Ok(Some(_)) => Ok(LookupOfRows(jobRows))
  }

  /** The dictionary comprehension over the query's rows. */
  function LookupOfRows(jobRows: seq<JobRow>): (lookup: map<TableKey, Option<Timestamp>>)
    ensures forall i :: 0 <= i < |jobRows| ==> (jobRows[i].datasetId, jobRows[i].tableId) in lookup
    ensures forall i :: 0 <= i < |jobRows| && LastRowForKey(jobRows, i) ==>
              lookup[(jobRows[i].datasetId, jobRows[i].tableId)] == jobRows[i].lastQueryTime
  {
    var pairs := JobPairs(jobRows);
    assert forall i :: 0 <= i < |jobRows| ==> pairs[i].0 == (jobRows[i].datasetId, jobRows[i].tableId);
    assert forall i :: 0 <= i < |jobRows| && LastRowForKey(jobRows, i) ==> Assoc.IsLastForKey(pairs, i);
    Assoc.LastWins(pairs)
  }

  /** No later row of the result has the same `(dataset, table)` key as row `i`. */
  predicate LastRowForKey(jobRows: seq<JobRow>, i: int)
    requires 0 <= i < |jobRows|
  {
    forall j :: i < j < |jobRows| ==>
      (jobRows[j].datasetId, jobRows[j].tableId) != (jobRows[i].datasetId, jobRows[i].tableId)
  }

  /** The lookup holds no key the query did not return. */
  lemma LookupKeysFromRows(datasets: seq<string>, location: string, jobRows: seq<JobRow>, key: TableKey)
    requires FetchLastQueryTimes(datasets, location, jobRows).Ok?
    requires key in FetchLastQueryTimes(datasets, location, jobRows).value
    ensures exists i :: 0 <= i < |jobRows| && (jobRows[i].datasetId, jobRows[i].tableId) == key
  {
    var pairs := JobPairs(jobRows);
    Assoc.LastWinsKeys(pairs, key);
    var i :| 0 <= i < |pairs| && pairs[i].0 == key;
  }

  // ---------------------------------------------------------------------------
  // The activity list
  // ---------------------------------------------------------------------------

  /** A row of the `INFORMATION_SCHEMA.TABLES` query of one dataset. */
  datatype TableRow = TableRow(
    tableName: string,
    creationTime: Option<Timestamp>,
    lastModifiedTime: Option<Timestamp>,
    rowCount: Option<int>,
    sizeBytes: Option<int>)

  /** The outcome of querying one dataset's tables: its rows, or `NotFound`,
      after which the dataset is skipped. */
  datatype DatasetTables = Found(rows: seq<TableRow>) | NotFound

  /** `TableActivity`. */
  datatype TableActivity = TableActivity(
    datasetId: string,
    tableId: string,
    lastUpdated: Option<Timestamp>,
    lastQueried: Option<Timestamp>,
    creationTime: Option<Timestamp>,
    rowCount: Option<int>,
    sizeBytes: Option<int>)

  /** `last_query_lookup.get(key)`. */
  function LookupGet(lookup: map<TableKey, Option<Timestamp>>, key: TableKey): Option<Timestamp> {
    if key in lookup then lookup[key] else None
  }

  /** The activity entry for one table row. */
  function ActivityOf(datasetId: string, row: TableRow, lookup: map<TableKey, Option<Timestamp>>): (a: TableActivity)
    ensures a.datasetId == datasetId && a.tableId == row.tableName
    ensures a.lastQueried == LookupGet(lookup, (datasetId, row.tableName))
    ensures a.lastUpdated == row.lastModifiedTime && a.creationTime == row.creationTime
    ensures a.rowCount == row.rowCount && a.sizeBytes == row.sizeBytes
  {
    TableActivity(datasetId, row.tableName, row.lastModifiedTime,
                  LookupGet(lookup, (datasetId, row.tableName)),
                  row.creationTime, row.rowCount, row.sizeBytes)
  }

  /** The entries one dataset contributes: its non-excluded rows, in order. */
  function DatasetActivities(datasetId: string, rows: seq<TableRow>, exclusions: seq<string>,
                             lookup: map<TableKey, Option<Timestamp>>): seq<TableActivity>
    decreases |rows|
  {
    if |rows| == 0 then []
    else
      var init := DatasetActivities(datasetId, rows[..|rows| - 1], exclusions, lookup);
      var row := rows[|rows| - 1];
      if IsExcluded(row.tableName, exclusions) then init else init + [ActivityOf(datasetId, row, lookup)]
  }

  /** The activity list for the datasets, as a specification: each found
      dataset's entries in dataset order. */
  function Activities(datasets: seq<string>, tablesOf: string -> DatasetTables, exclusions: seq<string>,
                      lookup: map<TableKey, Option<Timestamp>>): seq<TableActivity>
    decreases |datasets|
  {
    if |datasets| == 0 then []
    else
      var init := Activities(datasets[..|datasets| - 1], tablesOf, exclusions, lookup);
      var ds := datasets[|datasets| - 1];
      match tablesOf(ds)
      case NotFound => init
      case Found(rows) => init + DatasetActivities(ds, rows, exclusions, lookup)
  }

  /** The loop of `fetch_table_activity` over datasets and their rows, after the
      lookup has been fetched. */
  method CollectActivities(datasets: seq<string>, tablesOf: string -> DatasetTables, exclusions: seq<string>,
                           lookup: map<TableKey, Option<Timestamp>>)
    returns (activities: seq<TableActivity>)
    ensures activities == Activities(datasets, tablesOf, exclusions, lookup)
  {
    activities := [];
    var d := 0;
    while d < |datasets|
      invariant 0 <= d <= |datasets|
      invariant activities == Activities(datasets[..d], tablesOf, exclusions, lookup)
    {
      var ds := datasets[d];
      assert datasets[..d + 1][..d] == datasets[..d];
      match tablesOf(ds) {
        case NotFound =>
        case Found(rows) =>
          var entries := CollectDatasetActivities(ds, rows, exclusions, lookup);
          activities := activities + entries;
      }
      d := d + 1;
    }
    assert datasets[..d] == datasets;
  }

  /** The inner loop of `fetch_table_activity` over the tables of one dataset. */
  method CollectDatasetActivities(datasetId: string, rows: seq<TableRow>, exclusions: seq<string>,
                                  lookup: map<TableKey, Option<Timestamp>>)
    returns (entries: seq<TableActivity>)
    ensures entries == DatasetActivities(datasetId, rows, exclusions, lookup)
  {
    entries := [];
    var k := 0;
    while k < |rows|
      invariant 0 <= k <= |rows|
      invariant entries == DatasetActivities(datasetId, rows[..k], exclusions, lookup)
    {
      var row := rows[k];
      assert rows[..k + 1][..k] == rows[..k];
      if !IsExcluded(row.tableName, exclusions) {
        entries := entries + [ActivityOf(datasetId, row, lookup)];
      }
      k := k + 1;
    }
    assert rows[..k] == rows;
  }

  /** `fetch_table_activity`: fetch the lookup (which fails only for a blank
      location), then collect the entries. */
  method FetchTableActivity(datasets: seq<string>, configuredExclusions: seq<string>, location: string,
                            tablesOf: string -> DatasetTables, jobRows: seq<JobRow>)
    returns (r: Result<seq<TableActivity>>)
    ensures r.Err? <==> |datasets| > 0 && AllSpace(location)
    ensures r.Ok? ==>
              var lookup := FetchLastQueryTimes(datasets, location, jobRows).value;
              r.value == Activities(datasets, tablesOf, NormalizeExclusions(Some(configuredExclusions)), lookup)
  {
    var exclusions := NormalizeExclusions(Some(configuredExclusions));
    var lookup := FetchLastQueryTimes(datasets, location, jobRows);
    if lookup.Err? {
      return Err(lookup.message);
    }
    var activities := CollectActivities(datasets, tablesOf, exclusions, lookup.value);
    return Ok(activities);
  }

  /** `fetch_table_activity` with its configured datasets, exclusions and
      location: the default location is never blank, so it always succeeds. */
  method FetchDefaultTableActivity(tablesOf: string -> DatasetTables, jobRows: seq<JobRow>)
    returns (activities: seq<TableActivity>)
    ensures var lookup := FetchLastQueryTimes(TargetDatasets, DefaultLocation, jobRows);
            && lookup.Ok?
            && activities == Activities(TargetDatasets, tablesOf,
                                        NormalizeExclusions(Some(ExcludedTableNameSubstrings)), lookup.value)
  {
    assert !IsSpace(DefaultLocation[0]);
    var r := FetchTableActivity(TargetDatasets, ExcludedTableNameSubstrings, DefaultLocation, tablesOf, jobRows);
    activities := r.value;
  }

  /** Every entry of a dataset comes from one of its rows, is not excluded, and
      carries the lookup value for its key. */
  lemma {:induction false} DatasetActivitiesSound(datasetId: string, rows: seq<TableRow>, exclusions: seq<string>,
                                                  lookup: map<TableKey, Option<Timestamp>>, a: TableActivity)
    requires a in DatasetActivities(datasetId, rows, exclusions, lookup)
    ensures a.datasetId == datasetId && !IsExcluded(a.tableId, exclusions)
    ensures a.lastQueried == LookupGet(lookup, (a.datasetId, a.tableId))
    ensures exists j :: 0 <= j < |rows| && a == ActivityOf(datasetId, rows[j], lookup)
    decreases |rows|
  {
    var init := rows[..|rows| - 1];
    var row := rows[|rows| - 1];
    if a in DatasetActivities(datasetId, init, exclusions, lookup) {
      DatasetActivitiesSound(datasetId, init, exclusions, lookup, a);
      var j :| 0 <= j < |init| && a == ActivityOf(datasetId, init[j], lookup);
      assert rows[j] == init[j];
    } else {
      assert a == ActivityOf(datasetId, row, lookup);
    }
  }

  /** Every row whose name is not excluded has its entry. */
  lemma {:induction false} DatasetActivitiesComplete(datasetId: string, rows: seq<TableRow>, exclusions: seq<string>,
                                                     lookup: map<TableKey, Option<Timestamp>>, j: int)
    requires 0 <= j < |rows| && !IsExcluded(rows[j].tableName, exclusions)
    ensures ActivityOf(datasetId, rows[j], lookup) in DatasetActivities(datasetId, rows, exclusions, lookup)
    decreases |rows|
  {
    if j < |rows| - 1 {
      var init := rows[..|rows| - 1];
      assert init[j] == rows[j];
      DatasetActivitiesComplete(datasetId, init, exclusions, lookup, j);
    }
  }

  /** Rows keep their order: the entries of two runs of rows are the entries of
      the first followed by those of the second. */
  lemma {:induction false} DatasetActivitiesAppend(datasetId: string, rows1: seq<TableRow>, rows2: seq<TableRow>,
                                                   exclusions: seq<string>, lookup: map<TableKey, Option<Timestamp>>)
    ensures DatasetActivities(datasetId, rows1 + rows2, exclusions, lookup)
            == DatasetActivities(datasetId, rows1, exclusions, lookup)
               + DatasetActivities(datasetId, rows2, exclusions, lookup)
    decreases |rows2|
  {
    if |rows2| == 0 {
      assert rows1 + rows2 == rows1;
    } else {
      var init2 := rows2[..|rows2| - 1];
      assert (rows1 + rows2)[..|rows1 + rows2| - 1] == rows1 + init2;
      assert (rows1 + rows2)[|rows1 + rows2| - 1] == rows2[|rows2| - 1];
      DatasetActivitiesAppend(datasetId, rows1, init2, exclusions, lookup);
    }
  }

  /** Datasets keep their order: the entries of two lists of datasets are the
      entries of the first followed by those of the second. */
  lemma {:induction false} ActivitiesAppend(datasets1: seq<string>, datasets2: seq<string>,
                                            tablesOf: string -> DatasetTables, exclusions: seq<string>,
                                            lookup: map<TableKey, Option<Timestamp>>)
    ensures Activities(datasets1 + datasets2, tablesOf, exclusions, lookup)
            == Activities(datasets1, tablesOf, exclusions, lookup) + Activities(datasets2, tablesOf, exclusions, lookup)
    decreases |datasets2|
  {
    if |datasets2| == 0 {
      assert datasets1 + datasets2 == datasets1;
    } else {
      var init2 := datasets2[..|datasets2| - 1];
      assert (datasets1 + datasets2)[..|datasets1 + datasets2| - 1] == datasets1 + init2;
      assert (datasets1 + datasets2)[|datasets1 + datasets2| - 1] == datasets2[|datasets2| - 1];
      ActivitiesAppend(datasets1, init2, tablesOf, exclusions, lookup);
    }
  }

  /** The activity list holds exactly the non-excluded rows of the found
      datasets, each with the lookup value for its key. */
  lemma {:induction false} ActivitiesMembers(datasets: seq<string>, tablesOf: string -> DatasetTables,
                                             exclusions: seq<string>, lookup: map<TableKey, Option<Timestamp>>,
                                             a: TableActivity)
    ensures a in Activities(datasets, tablesOf, exclusions, lookup)
            <==> exists d :: 0 <= d < |datasets| && tablesOf(datasets[d]).Found?
                             && a in DatasetActivities(datasets[d], tablesOf(datasets[d]).rows, exclusions, lookup)
    decreases |datasets|
  {
    if |datasets| > 0 {
      var init := datasets[..|datasets| - 1];
      var last := |datasets| - 1;
      ActivitiesMembers(init, tablesOf, exclusions, lookup, a);
      assert forall d :: 0 <= d < |init| ==> init[d] == datasets[d];
      if a in Activities(init, tablesOf, exclusions, lookup) {
        var d :| 0 <= d < |init| && tablesOf(init[d]).Found?
                 && a in DatasetActivities(init[d], tablesOf(init[d]).rows, exclusions, lookup);
        assert datasets[d] == init[d];
      }
    }
  }

  /** A dataset that is not found contributes nothing. */
  lemma MissingDatasetSkipped(datasets: seq<string>, ds: string, tablesOf: string -> DatasetTables,
                              exclusions: seq<string>, lookup: map<TableKey, Option<Timestamp>>)
    requires tablesOf(ds) == NotFound
    ensures Activities(datasets + [ds], tablesOf, exclusions, lookup) == Activities(datasets, tablesOf, exclusions, lookup)
  {
    assert (datasets + [ds])[..|datasets|] == datasets;
  }

  // ---------------------------------------------------------------------------
  // CSV rows
  // ---------------------------------------------------------------------------

  /** `_format_timestamp`: the ISO text, or the empty string for `None`. */
  function FormatTimestamp(value: Option<Timestamp>): (r: string)
    ensures value.None? ==> r == ""
    ensures value.Some? ==> r == value.value.iso
  {
    match value
    case None => ""
    case Some(t) => t.iso
  }

  /** A value of the row dictionary: text, or an optional integer (`None` is
      written as an empty cell). */
  datatype Cell = Text(text: string) | Integer(number: Option<int>)

  /** The keys of the row dictionary. */
  datatype Column = DatasetId | TableId | LastUpdated | LastQueried | CreationTime | RowCount | SizeBytes

  function ColumnName(c: Column): string {
    match c
    case DatasetId => "dataset_id"
    case TableId => "table_id"
    case LastUpdated => "last_updated"
    case LastQueried => "last_queried"
    case CreationTime => "creation_time"
    case RowCount => "row_count"
    case SizeBytes => "size_bytes"
  }

  /** The keys in the order the row dictionary lists them. */
  const RowColumns: seq<Column> := [DatasetId, TableId, LastUpdated, LastQueried, CreationTime, RowCount, SizeBytes]

  /** The CSV header of `save_table_activity_csv`, in column order. */
  const FieldNames: seq<string> :=
    ["dataset_id", "table_id", "last_updated", "last_queried", "creation_time", "row_count", "size_bytes"]

  /** The row's keys are the header's field names, in the same order, and
      every key is listed once. */
  lemma RowKeysAreFieldNames()
    ensures |RowColumns| == |FieldNames|
    ensures forall i :: 0 <= i < |RowColumns| ==> ColumnName(RowColumns[i]) == FieldNames[i]
    ensures forall c: Column :: c in RowColumns
    ensures forall i, j :: 0 <= i < j < |RowColumns| ==> RowColumns[i] != RowColumns[j]
  {
    forall c: Column ensures c in RowColumns {
      match c {
        case DatasetId => assert RowColumns[0] == c;
        case TableId => assert RowColumns[1] == c;
        case LastUpdated => assert RowColumns[2] == c;
        case LastQueried => assert RowColumns[3] == c;
        case CreationTime => assert RowColumns[4] == c;
        case RowCount => assert RowColumns[5] == c;
        case SizeBytes => assert RowColumns[6] == c;
      }
    }
  }

  /** The value under one key of the row dictionary. */
  function RowCell(a: TableActivity, c: Column): Cell {
    match c
    case DatasetId => Text(a.datasetId)
    case TableId => Text(a.tableId)
    case LastUpdated => Text(FormatTimestamp(a.lastUpdated))
    case LastQueried => Text(FormatTimestamp(a.lastQueried))
    case CreationTime => Text(FormatTimestamp(a.creationTime))
    case RowCount => Integer(a.rowCount)
    case SizeBytes => Integer(a.sizeBytes)
  }

  /** `_activity_to_row`: every key present, the names as text, each time as
      its ISO text or an empty cell, the counts as they are. */
  function ActivityToRow(a: TableActivity): (row: map<Column, Cell>)
    ensures forall c :: c in row
    ensures row[DatasetId] == Text(a.datasetId) && row[TableId] == Text(a.tableId)
    ensures row[LastUpdated] == Text(FormatTimestamp(a.lastUpdated))
    ensures row[LastQueried] == Text(FormatTimestamp(a.lastQueried))
    ensures row[CreationTime] == Text(FormatTimestamp(a.creationTime))
    ensures row[RowCount] == Integer(a.rowCount) && row[SizeBytes] == Integer(a.sizeBytes)
  {
    RowKeysAreFieldNames();
    map c | c in RowColumns :: RowCell(a, c)
  }

  /** `isoformat()` never gives empty text, so a time's cell tells a missing
      time from a present one. */
  predicate HasIsoText(t: Option<Timestamp>) {
    t.None? || t.value.iso != ""
  }

  predicate TimesHaveIsoText(a: TableActivity) {
    HasIsoText(a.lastUpdated) && HasIsoText(a.lastQueried) && HasIsoText(a.creationTime)
  }

  /** A time can be read back from its cell. */
  lemma FormatTimestampInjective(x: Option<Timestamp>, y: Option<Timestamp>)
    requires HasIsoText(x) && HasIsoText(y)
    requires FormatTimestamp(x) == FormatTimestamp(y)
    ensures x == y
  {
  }

  /** The row loses nothing: two activities with the same row are the same
      activity. */
  lemma ActivityRowDeterminesActivity(a: TableActivity, b: TableActivity)
    requires TimesHaveIsoText(a) && TimesHaveIsoText(b)
    requires ActivityToRow(a) == ActivityToRow(b)
    ensures a == b
  {
    FormatTimestampInjective(a.lastUpdated, b.lastUpdated);
    FormatTimestampInjective(a.lastQueried, b.lastQueried);
    FormatTimestampInjective(a.creationTime, b.creationTime);
  }
}

=== FILE: text.dfy ===
/** The string operations the scripts rely on, over ASCII: Python's `strip()`,
    `lower()`, `startswith`, the `in` substring test, `split(sep)`, `sep.join(...)`
    and `str(int)`. Unicode-aware behaviour (non-ASCII whitespace and case
    mappings) is not modelled. */
module Text {
  import opened Wrappers

  /** Python truthiness of an optional string: present and non-empty. */
  predicate Truthy(o: Option<string>) {
    o.Some? && o.value != ""
  }

  // ---------------------------------------------------------------------------
  // Whitespace and strip()
  // ---------------------------------------------------------------------------

  /** `str.isspace()` on an ASCII character: space, tab, line feed, vertical tab,
      form feed, carriage return (9..13) and the separators 28..31. */
  predicate IsSpace(c: char) {
    c == ' ' || (9 <= c as int <= 13) || (28 <= c as int <= 31)
  }

  predicate AllSpace(s: string) {
    forall i :: 0 <= i < |s| ==> IsSpace(s[i])
  }

  /** Neither end of `s` is whitespace. */
  predicate Trimmed(s: string) {
    |s| == 0 || (!IsSpace(s[0]) && !IsSpace(s[|s| - 1]))
  }

  /** How many whitespace characters open `s`: the index of its first
      non-space character, or `|s|` when there is none. */
  function LeadingSpace(s: string): (k: nat)
    ensures k <= |s|
    ensures forall i :: 0 <= i < k ==> IsSpace(s[i])
    ensures k == |s| || !IsSpace(s[k])
    decreases |s|
  {
    if |s| > 0 && IsSpace(s[0]) then
      var k := LeadingSpace(s[1..]);
      assert forall i :: 1 <= i <= k && i < |s| ==> s[i] == s[1..][i - 1];
      1 + k
    else 0
  }

  /** How many whitespace characters close `s`. */
  function TrailingSpace(s: string): (k: nat)
    ensures k <= |s|
    ensures forall i :: |s| - k <= i < |s| ==> IsSpace(s[i])
    ensures k == |s| || !IsSpace(s[|s| - 1 - k])
    decreases |s|
  {
    if |s| > 0 && IsSpace(s[|s| - 1]) then
      var k := TrailingSpace(s[..|s| - 1]);
      assert forall i :: |s| - 1 - k <= i < |s| - 1 ==> s[i] == s[..|s| - 1][i];
      1 + k
    else 0
  }

  /** The contract of `LeadingSpace` determines it. */
  lemma LeadingSpaceUnique(s: string, k: nat)
    requires k <= |s|
    requires forall i :: 0 <= i < k ==> IsSpace(s[i])
    requires k == |s| || !IsSpace(s[k])
    ensures LeadingSpace(s) == k
  {
  }

  /** The contract of `TrailingSpace` determines it. */
  lemma TrailingSpaceUnique(s: string, k: nat)
    requires k <= |s|
    requires forall i :: |s| - k <= i < |s| ==> IsSpace(s[i])
    requires k == |s| || !IsSpace(s[|s| - 1 - k])
    ensures TrailingSpace(s) == k
  {
  }

  /** `s.lstrip()`. */
  function StripStart(s: string): string {
    s[LeadingSpace(s)..]
  }

  /** `s.rstrip()`. */
  function StripEnd(s: string): string {
    s[..|s| - TrailingSpace(s)]
  }

  /** `s.strip()`. */
  function Strip(s: string): (r: string)
    ensures Trimmed(r)
    ensures |r| <= |s|
    ensures |r| == 0 <==> AllSpace(s)
  {
    var t := StripStart(s);
    var r := StripEnd(t);
    assert |t| > 0 ==> t[0] == s[LeadingSpace(s)];
    assert |r| > 0 ==> r[0] == t[0] && r[|r| - 1] == t[|r| - 1];
    assert |t| > 0 ==> TrailingSpace(t) < |t|;
    r
  }

  lemma StripStartPadded(a: string, t: string)
    requires AllSpace(a)
    requires |t| == 0 || !IsSpace(t[0])
    ensures StripStart(a + t) == t
  {
    var s := a + t;
    assert forall i :: 0 <= i < |a| ==> s[i] == a[i];
    assert |t| > 0 ==> s[|a|] == t[0];
    LeadingSpaceUnique(s, |a|);
    assert s[|a|..] == t;
  }

  lemma StripEndPadded(t: string, b: string)
    requires AllSpace(b)
    requires |t| == 0 || !IsSpace(t[|t| - 1])
    ensures StripEnd(t + b) == t
  {
    var s := t + b;
    assert forall i :: |t| <= i < |s| ==> s[i] == b[i - |t|];
    assert |t| > 0 ==> s[|t| - 1] == t[|t| - 1];
    TrailingSpaceUnique(s, |b|);
    assert s[..|t|] == t;
  }

  /** Stripping removes exactly the whitespace padding around a trimmed core:
      the core is the unique result, which also makes `Strip` idempotent. */
  lemma StripPadded(a: string, m: string, b: string)
    requires AllSpace(a) && AllSpace(b) && Trimmed(m)
    ensures Strip(a + m + b) == m
  {
    if |m| > 0 {
      assert a + m + b == a + (m + b);
      assert (m + b)[0] == m[0];
      StripStartPadded(a, m + b);
      StripEndPadded(m, b);
    } else {
      assert a + m + b == a + b;
      assert forall i :: 0 <= i < |a + b| ==> (a + b)[i] == if i < |a| then a[i] else b[i - |a|];
    }
  }

  /** Trailing whitespace after a part that ends in a non-space is all `rstrip`
      can remove. */
  lemma StripEndAppend(a: string, b: string)
    requires |a| == 0 || !IsSpace(a[|a| - 1])
    ensures StripEnd(a + b) == a + StripEnd(b)
  {
    var s := a + b;
    var k := TrailingSpace(b);
    assert forall i :: |a| <= i < |s| ==> s[i] == b[i - |a|];
    assert |a| > 0 ==> s[|a| - 1] == a[|a| - 1];
    TrailingSpaceUnique(s, k);
    assert s[..|s| - k] == a + b[..|b| - k];
  }

  /** Text that starts with a non-space character loses only trailing whitespace. */
  lemma StripFromNonSpace(s: string)
    requires |s| > 0 && !IsSpace(s[0])
    ensures Strip(s) == StripEnd(s)
  {
    LeadingSpaceUnique(s, 0);
    assert s[0..] == s;
  }

  /** Text that ends in a non-space character is left alone by `rstrip`. */
  lemma StripEndKeeps(s: string)
    requires |s| == 0 || !IsSpace(s[|s| - 1])
    ensures StripEnd(s) == s
  {
    TrailingSpaceUnique(s, 0);
    assert s[..|s|] == s;
  }

  /** Text with a non-space character strips to non-empty, trimmed text. */
  lemma StripVisible(s: string)
    requires !AllSpace(s)
    ensures Strip(s) != "" && Trimmed(Strip(s))
  {
  }

  /** Text that starts and ends with non-space characters is trimmed. */
  lemma TrimmedConcat(a: string, b: string)
    requires |a| > 0 && !IsSpace(a[0])
    requires |b| > 0 && !IsSpace(b[|b| - 1])
    ensures Trimmed(a + b)
  {
    var t := a + b;
    assert t[0] == a[0];
    assert t[|t| - 1] == b[|b| - 1];
  }

  /** A word, a space and trimmed text form trimmed text. */
  lemma PrefixedTrimmed(word: string, s: string)
    requires |word| > 0 && !IsSpace(word[0])
    requires |s| > 0 && Trimmed(s)
    ensures Trimmed(word + " " + s)
  {
    var t := word + " " + s;
    assert t[0] == word[0];
    assert t[|t| - 1] == s[|s| - 1];
  }

  /** After text with no whitespace at its start or end, `strip()` can only
      remove trailing whitespace of what follows. */
  lemma StripAfterTrimmedHead(head: string, tail: string)
    requires |head| > 0 && Trimmed(head)
    ensures Strip(head + tail) == head + StripEnd(tail)
  {
    assert (head + tail)[0] == head[0];
    StripFromNonSpace(head + tail);
    StripEndAppend(head, tail);
  }

  /** Trimmed text is its own `strip()`. */
  lemma StripTrimmed(s: string)
    requires Trimmed(s)
    ensures Strip(s) == s
  {
    assert "" + s + "" == s;
    StripPadded("", s, "");
  }

  /** Stripping never introduces a character. */
  lemma StripInfix(s: string, c: char)
    requires c !in s
    ensures c !in Strip(s)
  {
    var t := StripStart(s);
    var r := StripEnd(t);
    assert forall k :: 0 <= k < |r| ==> r[k] == t[k] == s[LeadingSpace(s) + k];
  }

  /** One trailing space after trimmed text is all `strip()` removes. */
  lemma StripTrailingSpace(s: string)
    requires Trimmed(s)
    ensures Strip(s + " ") == s
  {
    assert AllSpace(" ");
    StripPadded("", s, " ");
    assert "" + s + " " == s + " ";
  }

  // ---------------------------------------------------------------------------
  // lower()
  // ---------------------------------------------------------------------------

  predicate IsUpperChar(c: char) {
    'A' <= c <= 'Z'
  }

  function LowerChar(c: char): (r: char)
    ensures !IsUpperChar(r)
  {
    if IsUpperChar(c) then (c as int + 32) as char else c
  }

  /** `s.lower()` on ASCII: each upper-case letter replaced by its lower-case form. */
  function Lower(s: string): (r: string)
    ensures |r| == |s|
    ensures forall i :: 0 <= i < |s| ==> r[i] == LowerChar(s[i])
  {
    seq(|s|, i requires 0 <= i < |s| => LowerChar(s[i]))
  }

  /** No ASCII upper-case letter occurs in `s`. */
  predicate IsLower(s: string) {
    forall i :: 0 <= i < |s| ==> !IsUpperChar(s[i])
  }

  lemma LowerFixesLower(s: string)
    requires IsLower(s)
    ensures Lower(s) == s
  {
  }

  lemma LowerIdempotent(s: string)
    ensures IsLower(Lower(s))
    ensures Lower(Lower(s)) == Lower(s)
  {
  }

  lemma LowerKeepsSpace(s: string)
    ensures forall i :: 0 <= i < |s| ==> (IsSpace(Lower(s)[i]) <==> IsSpace(s[i]))
  {
  }

  lemma LeadingSpaceLower(s: string)
    ensures LeadingSpace(Lower(s)) == LeadingSpace(s)
  {
    LowerKeepsSpace(s);
    LeadingSpaceUnique(Lower(s), LeadingSpace(s));
  }

  lemma TrailingSpaceLower(s: string)
    ensures TrailingSpace(Lower(s)) == TrailingSpace(s)
  {
    LowerKeepsSpace(s);
    TrailingSpaceUnique(Lower(s), TrailingSpace(s));
  }

  lemma LowerDrop(s: string, k: nat)
    requires k <= |s|
    ensures Lower(s)[k..] == Lower(s[k..])
  {
  }

  lemma LowerTake(s: string, k: nat)
    requires k <= |s|
    ensures Lower(s)[..k] == Lower(s[..k])
  {
  }

  /** Lower-casing keeps whitespace where it is, so it commutes with `strip()`. */
  lemma StripLower(s: string)
    ensures Strip(Lower(s)) == Lower(Strip(s))
  {
    var k := LeadingSpace(s);
    LeadingSpaceLower(s);
    LowerDrop(s, k);
    var t := s[k..];
    TrailingSpaceLower(t);
    LowerTake(t, |t| - TrailingSpace(t));
  }

  // ---------------------------------------------------------------------------
  // startswith / endswith / substring
  // ---------------------------------------------------------------------------

  /** Concatenation regroups freely; stated once so proofs can cite it
      instead of rediscovering it. */
  lemma ConcatAssoc<T>(a: seq<T>, b: seq<T>, c: seq<T>)
    ensures a + (b + c) == a + b + c
  {
  }

  lemma HeadTail<T>(s: seq<T>)
    requires |s| > 0
    ensures [s[0]] + s[1..] == s
  {
  }

  lemma ConsParts<T>(x: T, s: seq<T>)
    ensures ([x] + s)[0] == x && ([x] + s)[1..] == s
  {
  }

  lemma TailOfConcat<T>(a: seq<T>, b: seq<T>)
    requires |a| > 0
    ensures (a + b)[0] == a[0] && (a + b)[1..] == a[1..] + b
  {
  }

  lemma EmptyPrefix<T>(s: seq<T>)
    ensures [] + s == s
  {
  }

  /** `[f(x) for x in s]`. */
  function MapSeq<A, B>(f: A -> B, s: seq<A>): (r: seq<B>)
    ensures |r| == |s|
    ensures forall i :: 0 <= i < |s| ==> r[i] == f(s[i])
  {
    seq(|s|, i requires 0 <= i < |s| => f(s[i]))
  }

  lemma MapSeqCons<A, B>(f: A -> B, x: A, s: seq<A>)
    ensures MapSeq(f, [x] + s) == [f(x)] + MapSeq(f, s)
  {
    assert forall i :: 1 <= i <= |s| ==> ([x] + s)[i] == s[i - 1];
  }

  predicate StartsWith(s: string, prefix: string) {
    |prefix| <= |s| && s[..|prefix|] == prefix
  }

  predicate EndsWith(s: string, suffix: string) {
    |suffix| <= |s| && s[|s| - |suffix|..] == suffix
  }

  lemma StartsWithSelf(s: string)
    ensures StartsWith(s, s)
  {
    assert s[..|s|] == s;
  }

  lemma EndsWithAppend(a: string, b: string)
    ensures EndsWith(a + b, b)
  {
    assert (a + b)[|a|..] == b;
  }

  lemma StartsWithAppend(a: string, b: string)
    ensures StartsWith(a + b, a)
  {
    assert (a + b)[..|a|] == a;
  }

  /** Python's `needle in hay` for strings (the empty string occurs everywhere). */
  predicate IsInfix(needle: string, hay: string)
    decreases |hay|
  {
    StartsWith(hay, needle) || (|hay| > 0 && IsInfix(needle, hay[1..]))
  }

  /** `needle` occurs in `hay` starting at offset `k`. */
  predicate OccursAt(needle: string, hay: string, k: int) {
    0 <= k <= |hay| - |needle| && hay[k..k + |needle|] == needle
  }

  /** `IsInfix` holds exactly when the needle occurs at some offset. */
  lemma {:induction false} InfixIffOccurs(needle: string, hay: string)
    ensures IsInfix(needle, hay) <==> exists k :: OccursAt(needle, hay, k)
    decreases |hay|
  {
    if StartsWith(hay, needle) {
      assert OccursAt(needle, hay, 0);
    } else if |hay| > 0 {
      InfixIffOccurs(needle, hay[1..]);
      if IsInfix(needle, hay[1..]) {
        var k :| OccursAt(needle, hay[1..], k);
        assert hay[k + 1..k + 1 + |needle|] == hay[1..][k..k + |needle|];
        assert OccursAt(needle, hay, k + 1);
      }
      if exists k :: OccursAt(needle, hay, k) {
        var k :| OccursAt(needle, hay, k);
        assert k != 0;
        assert hay[1..][k - 1..k - 1 + |needle|] == hay[k..k + |needle|];
        assert OccursAt(needle, hay[1..], k - 1);
      }
    }
  }

  /** Lower-casing commutes with taking an occurrence. */
  lemma LowerOccurs(needle: string, hay: string, k: int)
    requires OccursAt(needle, hay, k)
    ensures OccursAt(Lower(needle), Lower(hay), k)
  {
    var window := Lower(hay)[k..k + |needle|];
    forall i | 0 <= i < |needle|
      ensures window[i] == Lower(needle)[i]
    {
      assert window[i] == Lower(hay)[k + i] == LowerChar(hay[k + i]);
      assert hay[k + i] == hay[k..k + |needle|][i] == needle[i];
    }
  }

  /** A substring stays a substring when both sides are lower-cased. */
  lemma LowerPreservesInfix(needle: string, hay: string)
    requires IsInfix(needle, hay)
    ensures IsInfix(Lower(needle), Lower(hay))
  {
    InfixIffOccurs(needle, hay);
    var k :| OccursAt(needle, hay, k);
    LowerOccurs(needle, hay, k);
    InfixIffOccurs(Lower(needle), Lower(hay));
  }

  // ---------------------------------------------------------------------------
  // split(sep) and sep.join(parts)
  // ---------------------------------------------------------------------------

  /** Number of occurrences of `c` in `s`. */
  function Count(s: string, c: char): nat
    decreases |s|
  {
    if |s| == 0 then 0 else (if s[0] == c then 1 else 0) + Count(s[1..], c)
  }

  /** Python's `s.split(sep)` for a one-character separator: never empty, and
      no part contains the separator. */
  function Split(s: string, sep: char): (parts: seq<string>)
    ensures |parts| == Count(s, sep) + 1
    ensures forall i :: 0 <= i < |parts| ==> sep !in parts[i]
    decreases |s|
  {
    if |s| == 0 then [""]
    else if s[0] == sep then [""] + Split(s[1..], sep)
    else
      var rest := Split(s[1..], sep);
      [[s[0]] + rest[0]] + rest[1..]
  }

  /** Python's `sep.join(parts)`. */
  function Join(parts: seq<string>, sep: string): string
    decreases |parts|
  {
    if |parts| == 0 then ""
    else if |parts| == 1 then parts[0]
    else parts[0] + sep + Join(parts[1..], sep)
  }

  /** Joining the pieces of a split with the same separator restores the text. */
  lemma {:induction false} JoinSplit(s: string, sep: char)
    ensures Join(Split(s, sep), [sep]) == s
    decreases |s|
  {
    if |s| > 0 {
      var rest := Split(s[1..], sep);
      JoinSplit(s[1..], sep);
      if s[0] == sep {
        assert ([""] + rest)[1..] == rest;
        assert s == [sep] + s[1..];
      } else {
        var parts := [[s[0]] + rest[0]] + rest[1..];
        if |rest| > 1 {
          assert parts[1..] == rest[1..];
          assert Join(rest, [sep]) == rest[0] + [sep] + Join(rest[1..], [sep]);
        }
        assert s == [s[0]] + s[1..];
      }
    }
  }

  lemma {:induction false} SplitFree(p: string, sep: char)
    requires sep !in p
    ensures Split(p, sep) == [p]
    decreases |p|
  {
    if |p| > 0 {
      assert sep !in p[1..] by { assert forall i :: 0 <= i < |p[1..]| ==> p[1..][i] == p[i + 1]; }
      SplitFree(p[1..], sep);
      assert [p[0]] + p[1..] == p;
    }
  }

  lemma {:induction false} SplitAfterFree(p: string, sep: char, t: string)
    requires sep !in p
    ensures Split(p + [sep] + t, sep) == [p] + Split(t, sep)
    decreases |p|
  {
    var s := p + [sep] + t;
    if |p| == 0 {
      assert s[1..] == t;
    } else {
      assert s[1..] == p[1..] + [sep] + t;
      assert sep !in p[1..] by { assert forall i :: 0 <= i < |p[1..]| ==> p[1..][i] == p[i + 1]; }
      SplitAfterFree(p[1..], sep, t);
      assert [p[0]] + p[1..] == p;
    }
  }

  /** Splitting a join restores the parts when none contains the separator. */
  lemma {:induction false} SplitJoin(parts: seq<string>, sep: char)
    requires |parts| >= 1
    requires forall i :: 0 <= i < |parts| ==> sep !in parts[i]
    ensures Split(Join(parts, [sep]), sep) == parts
    decreases |parts|
  {
    if |parts| == 1 {
      SplitFree(parts[0], sep);
    } else {
      SplitJoin(parts[1..], sep);
      SplitAfterFree(parts[0], sep, Join(parts[1..], [sep]));
      assert [parts[0]] + parts[1..] == parts;
    }
  }

  /** Joining two non-empty lists puts exactly one separator between them. */
  lemma {:induction false} JoinAppend(a: seq<string>, b: seq<string>, sep: string)
    requires |a| >= 1 && |b| >= 1
    ensures Join(a + b, sep) == Join(a, sep) + sep + Join(b, sep)
    decreases |a|
  {
    if |a| == 1 {
      assert (a + b)[1..] == b;
    } else {
      assert (a + b)[1..] == a[1..] + b;
      JoinAppend(a[1..], b, sep);
    }
  }

  // ---------------------------------------------------------------------------
  // str(int) and its inverse
  // ---------------------------------------------------------------------------

  predicate IsDigit(c: char) {
    '0' <= c <= '9'
  }

  function DigitChar(d: nat): (c: char)
    requires d < 10
    ensures IsDigit(c)
  {
    ('0' as int + d) as char
  }

  /** The decimal digits of `n`, most significant first, with no leading zero. */
  function NatToDecimal(n: nat): (r: string)
    ensures |r| >= 1
    ensures forall i :: 0 <= i < |r| ==> IsDigit(r[i])
    decreases n
  {
    if n < 10 then [DigitChar(n)] else NatToDecimal(n / 10) + [DigitChar(n % 10)]
  }

  /** Python's `str(i)` for an integer. */
  function IntToDecimal(i: int): (r: string)
    ensures |r| >= 1 && IsDigit(r[|r| - 1])
  {
    if i < 0 then "-" + NatToDecimal(-i) else NatToDecimal(i)
  }

  /** The value of a non-empty run of decimal digits. */
  function ParseNat(s: string): Option<nat>
    decreases |s|
  {
    if |s| == 0 || !IsDigit(s[|s| - 1]) then None
    else
      var d := s[|s| - 1] as int - '0' as int;
      if |s| == 1 then Some(d)
      else match ParseNat(s[..|s| - 1])
        case None => None
        case Some(high) => Some(high * 10 + d)
  }

  /** Python's `int(s)` restricted to an optional minus sign and digits. */
  function ParseInt(s: string): Option<int> {
    if |s| > 0 && s[0] == '-' then
      match ParseNat(s[1..])
      case None => None
      case Some(n) => Some(0 - n)
    else
      match ParseNat(s)
      case None => None
      case Some(n) => Some(n)
  }

  lemma {:induction false} ParseNatDecimal(n: nat)
    ensures ParseNat(NatToDecimal(n)) == Some(n)
    decreases n
  {
    if n >= 10 {
      var s := NatToDecimal(n);
      ParseNatDecimal(n / 10);
      assert s[..|s| - 1] == NatToDecimal(n / 10);
    }
  }

  /** `str` and `int` are inverse on integers. */
  lemma IntDecimalRoundTrip(i: int)
    ensures ParseInt(IntToDecimal(i)) == Some(i)
  {
    if i < 0 {
      var digits := NatToDecimal(-i);
      assert ParseNat(digits) == Some(-i) by {
        ParseNatDecimal(-i);
      }
      assert IntToDecimal(i) == ['-'] + digits;
      ConsParts('-', digits);
    } else {
      ParseNatDecimal(i);
    }
  }
}

=== FILE: wrappers.dfy ===
/** Optional values and failure-carrying results, used in place of Python's
    `None` and raised exceptions. */
module Wrappers {

  /** A value that may be missing: a key a JSON record does not have, or a
      Python argument that is `None`. A key present with an explicit JSON
      `null` is not this case. */
  datatype Option<+T> = None | Some(value: T) {

    /** The wrapped value, or `default` when missing (Python's `d.get(k, default)`). */
    function GetOr(default: T): T {
      match this
      case Some(v) => v
      case None => default
    }
  }

  /** The outcome of an operation that may raise: `Err` carries the message. */
  datatype Result<+T> = Ok(value: T) | Err(message: string)
}
